=== FILE: README.md ===
# City guide core, modelled in Dafny

This project models the logic behind a city guide web application for Indian
cities. The parts modelled are:

- **Bus-stop matcher** (`lib/bus-utils.ts`):
  - stop-name normalisation and fuzzy matching;
  - direct-route search with duration and fare estimates, sorted fastest first;
  - the alphabetical stop list and the stop search box.
- **Journey planner** (`lib/route-calculator.ts`, with the speed and fare constants
  of `lib/data/transport-types.ts`):
  - station lookup;
  - the metro, bus, taxi and walking options, sorted by duration.
- **Itinerary generator** (`lib/itinerary-generator.ts`):
  - per-category place lists;
  - the nearest-neighbour ordering of a day;
  - the rounded path length;
  - the fixed 1-, 2- and 3-day slot layouts.
- **City table** (`lib/data/cities.ts`) and its two lookups.
- **Page logic:**
  - the journey-planner page's search and swap handlers, fastest/cheapest picks and badge rule;
  - the explore page's place list and filter;
  - the bus-stop picker's list;
  - the day card's duration label.

The modules are:

| file | module |
|---|---|
| `wrappers.dfy` | `Wrappers` |
| `numeric.dfy` | `Numeric` |
| `text.dfy` | `Text` |
| `seqs.dfy` | `Seqs` |
| `types.dfy` | `Types` |
| `bus_utils.dfy` | `BusUtils` |
| `route_calculator.dfy` | `TransportTypes`, `RouteCalculator` |
| `itinerary.dfy` | `Itinerary` |
| `cities.dfy` | `Cities` |
| `transport_page.dfy` | `TransportPage` |
| `explore_page.dfy` | `ExplorePage` |
| `bus_stop_select.dfy` | `BusStopSelect` |
| `day_card.dfy` | `DayCard` |

Everything is pure functions over immutable datatypes, with one method: the
`for` loop of `calculateTotalDistance`. Strings are `seq<char>`. JavaScript
numbers are either `int` (minutes, rupees, indices) or `real` (distances,
fares before rounding). `Math.ceil` and `Math.round` are written out over the
reals. The shared modules hold the JavaScript library behaviour the code relies
on:

- ASCII `toLowerCase`/`toUpperCase`, `includes`, `split`, `trim`;
- the template rendering of integers;
- the default `sort` order of strings;
- a stable sort (as `Array.prototype.sort` is since ES2019);
- `filter`, `find`, `slice`;
- the `reduce` that keeps the later element on ties.

Inputs the code reads from bundled JSON files are parameters here:

- the bus routes;
- the stations;
- the places.

The straight-line distance between two points is also a parameter:

- `d: real` for one pair of stations;
- a function `(Place, Place) -> real` for the itinerary;
- a function `(Station, Station) -> real` for the journey-planner page.

Three behaviours of the stop normalisation in `lib/bus-utils.ts` are easy to
miss, and the model keeps them as the code has them:

- **Normalising twice can change the result.** Deleting a keyword between two
  words leaves a double space, which a second pass collapses. A deletion can
  also join its two neighbours into a new keyword ("jjnn" becomes "jn", then "").
- **Only two punctuation marks are handled.** Dots are deleted and hyphens turn
  into spaces; every other punctuation mark stays.
- **Keywords are deleted anywhere, even inside words.** The keyword pattern has
  no word boundaries, so "more" is deleted from the middle of "moreh" as well.

## Model

| member | source | states |
|---|---|---|
| BusUtils.RemoveDots | lib/bus-utils.ts:28 | deleting dots never lengthens the name |
| BusUtils.RemoveDotsFilter | lib/bus-utils.ts:28 | deleting dots is exactly filtering out the dot character, keeping the rest in order |
| BusUtils.HyphensToSpaces | lib/bus-utils.ts:29 | every hyphen becomes a space and every other character stays in place |
| BusUtils.CollapseSpace | lib/bus-utils.ts:30 | the collapsed name is no longer than the input, is empty exactly when the input is, and starts with white space exactly when the input does |
| BusUtils.CollapseRun | lib/bus-utils.ts:30 | a maximal run of white space, however long, becomes exactly one space, and the text on either side is collapsed on its own |
| BusUtils.CollapseSpaceChars | lib/bus-utils.ts:30 | every character after collapsing is a single space or a non-space character of the input |
| BusUtils.CollapseSpaceNoDoubles | lib/bus-utils.ts:30 | after collapsing, no two spaces are adjacent |
| BusUtils.CollapseSpaceText | lib/bus-utils.ts:30 | collapsing keeps every non-space character, in order |
| BusUtils.SpacePrefixFilter | lib/bus-utils.ts:30 | leading white space contributes no non-space character |
| BusUtils.KeywordAt | lib/bus-utils.ts:31 | a keyword found at a position is a non-empty prefix of the text there |
| BusUtils.KeywordFrom | lib/bus-utils.ts:31 | trying the alternatives from a given one on yields a non-empty prefix |
| BusUtils.KeywordFromFound | lib/bus-utils.ts:31 | what is found is one of the alternatives; when nothing is found, none of the remaining alternatives is a prefix |
| BusUtils.KeywordAtFound | lib/bus-utils.ts:31 | what is found is one of the seven keywords; when nothing is found, no keyword starts there |
| BusUtils.KeywordsPrefixFree | lib/bus-utils.ts:31 | no keyword is a prefix of another one |
| BusUtils.KeywordsExclusive | lib/bus-utils.ts:31 | at most one alternative of the pattern matches at any position |
| BusUtils.StripWords | lib/bus-utils.ts:31 | deleting keywords never lengthens the name |
| BusUtils.StripAt | lib/bus-utils.ts:31 | one step of the left-to-right scan never lengthens the name |
| BusUtils.StripWordsSubsequence | lib/bus-utils.ts:31 | what is left after deleting keywords is a subsequence of the input |
| BusUtils.StripWordsKeyword | lib/bus-utils.ts:31 | a keyword at the front is deleted whatever follows it, even inside a word |
| BusUtils.StripWordsNoKeyword | lib/bus-utils.ts:31 | a name in which no keyword occurs passes through unchanged |
| BusUtils.PrepareClean | lib/bus-utils.ts:26-30 | after lower-casing, dot removal, hyphen replacement and collapsing, no capital, dot, hyphen or non-space white space is left |
| BusUtils.Normalize | lib/bus-utils.ts:25-33 | a normalised name is never longer than the raw name and does not end in white space |
| BusUtils.NormalizeClean | lib/bus-utils.ts:25-33 | a normalised name has no capital, dot, hyphen or non-space white space, and neither starts nor ends with a space |
| BusUtils.OverlapsSomeIndex | lib/bus-utils.ts:50 | the inner `some` holds exactly when some stop word includes, or is included in, the query word |
| BusUtils.WordsOverlapIndex | lib/bus-utils.ts:47-50 | the word test holds exactly when some pair of words overlaps |
| BusUtils.MatchesStop | lib/bus-utils.ts:36-51 | two names that normalise to the same text match, and a query that normalises to nothing matches every stop |
| BusUtils.MatchesStopReflexive | lib/bus-utils.ts:36-51 | every name matches itself |
| BusUtils.WordsOverlapSymmetric | lib/bus-utils.ts:47-50 | the word test does not depend on which word list is the query's |
| BusUtils.MatchesStopSymmetric | lib/bus-utils.ts:36-51 | matching does not depend on which name is the query |
| BusUtils.EmptyQueryMatchesAll | lib/bus-utils.ts:44 | a query that normalises to nothing matches every stop |
| BusUtils.DoubledSpaceMatchesAll | lib/bus-utils.ts:30-50 | a query whose normalised form holds a double space (left by deleting a keyword between two words) matches every stop |
| BusUtils.DoubledSpaceOverlaps | lib/bus-utils.ts:47-50 | the empty word from a double space overlaps every word list |
| BusUtils.FindStopIndex | lib/bus-utils.ts:54-59 | the answer is -1 or an index of the stop list |
| BusUtils.FindStopFrom | lib/bus-utils.ts:55-58 | the loop from position i answers -1 or an index at or after i |
| BusUtils.FindStopStep | lib/bus-utils.ts:56 | the loop body answers -1 or an index at or after i |
| BusUtils.FindStopFromFound | lib/bus-utils.ts:55-57 | an index answered by the loop holds a matching stop, and no stop between i and it matches |
| BusUtils.FindStopFromNone | lib/bus-utils.ts:55-58 | when the loop answers -1, no stop from i on matches |
| BusUtils.FindStopIndexFirst | lib/bus-utils.ts:54-59 | -1 exactly when no stop matches; otherwise the smallest index of a matching stop |
| BusUtils.Duration | lib/bus-utils.ts:62-66 | the estimate is the least whole number of minutes at or above 2.5 (AC) or 3.5 (regular) minutes per stop |
| BusUtils.AcNotSlower | lib/bus-utils.ts:62-66 | an AC bus is never estimated slower than a regular one over the same stops |
| BusUtils.Fare | lib/bus-utils.ts:69-77 | an AC fare lies in 30..80 and a regular one in 8..25; below the caps it is 30 + 2n or 8 + n, and from 25 stops (AC) or 17 stops (regular) on it is exactly the cap |
| BusUtils.FareMonotone | lib/bus-utils.ts:69-77 | more stops never cost less |
| BusUtils.MatchOf | lib/bus-utils.ts:88-99 | the record built for a connecting route reports the first matching indices, origin before destination, the inclusive ride slice, and estimates from its length and bus type |
| BusUtils.MatchEnds | lib/bus-utils.ts:84-89 | the ride starts at a stop matching the origin, ends at one matching the destination, and no earlier stop matches the origin |
| BusUtils.Candidates | lib/bus-utils.ts:83-101 | at most one match per route |
| BusUtils.CandidatesMatch | lib/bus-utils.ts:83-101 | every collected match is the record of a connecting route of the list |
| BusUtils.CandidatesRoutes | lib/bus-utils.ts:83-101 | the matches' routes are a subsequence of the route list |
| BusUtils.CandidatesComplete | lib/bus-utils.ts:83-101 | no connecting route is missed |
| BusUtils.FindBusRoutes | lib/bus-utils.ts:80-105 | the result is sorted by estimated duration, is a permutation of the collected matches, and keeps the push order among equal durations |
| BusUtils.FindBusRoutesSound | lib/bus-utils.ts:80-105 | every result is the match record of a route that connects the two names |
| BusUtils.FindBusRoutesOffersAll | lib/bus-utils.ts:83-101 | every route on which the origin is found before the destination is offered |
| BusUtils.FindBusRoutesOnlyConnecting | lib/bus-utils.ts:87-88 | only routes on which the origin is found before the destination are offered |
| BusUtils.FindBusRoutesComplete | lib/bus-utils.ts:80-105 | a listed route is offered exactly when both names are found on it, origin first |
| BusUtils.FindBusRoutesNoRepeats | lib/bus-utils.ts:83-104 | over a route list without repeats, no route is offered twice |
| BusUtils.OneWay | lib/bus-utils.ts:87-88 | a route offered from a to b is never offered from b to a |
| BusUtils.InsertUnique | lib/bus-utils.ts:113 | adding a stop to the set keeps it strictly ordered and adds exactly that stop |
| BusUtils.InsertAll | lib/bus-utils.ts:111-115 | adding a route's stops keeps the set strictly ordered and adds exactly those stops |
| BusUtils.AllBusStops | lib/bus-utils.ts:108-118 | every stop of every route appears once, in ascending character-code order, and nothing else appears |
| BusUtils.SearchBusStops | lib/bus-utils.ts:126-133 | nothing for a query under two characters; otherwise at most ten stops, in ascending order, each whose normalised name includes the normalised query; when fewer than ten are listed, every such stop is listed; every matching stop that sorts before a listed one is listed too, so the ten are the first ten |
| TransportTypes.TariffOf | lib/data/transport-types.ts:1-42 | every mode has a positive average speed and non-negative fares |
| TransportTypes.SpeedOrder | lib/data/transport-types.ts:8-38 | by average speed: metro, then taxi, then bus, then walking |
| RouteCalculator.FindStation | lib/route-calculator.ts:7-10 | nothing exactly when no station's lower-cased name or id includes the lower-cased query; otherwise the first such station |
| RouteCalculator.EmptyQueryFindsFirst | lib/route-calculator.ts:7-10 | an empty query finds the first station |
| RouteCalculator.FindByOwnName | lib/route-calculator.ts:7-10 | a station name typed in full always finds a station (the first match, possibly an earlier station) |
| RouteCalculator.TravelMinutes | lib/route-calculator.ts:32-135 | the time estimate is the least whole number of minutes at the mode's average speed |
| RouteCalculator.TravelFare | lib/route-calculator.ts:33-111 | the fare is the least whole number of rupees at or above the base fare plus the distance charge |
| RouteCalculator.TravelMonotone | lib/route-calculator.ts:32-33 | times and fares never fall as the distance grows |
| RouteCalculator.MetroOption | lib/route-calculator.ts:31-69 | no interchange exactly when the stations share a line, else one; the ride takes the metro time and the option 5 minutes more per interchange; three legs (walk 5, ride on the origin's first line, walk 3); the straight-line distance rounded to one decimal |
| RouteCalculator.BusOption | lib/route-calculator.ts:71-107 | the ride time plus 10 minutes of waiting, one interchange exactly beyond 5 km, a distance of 1.2 times the straight line, rounded to one decimal |
| RouteCalculator.TaxiOption | lib/route-calculator.ts:109-131 | one direct leg taking the whole duration, no interchange, the taxi fare, and the distance rounded to one decimal |
| RouteCalculator.WalkOption | lib/route-calculator.ts:133-154 | one direct leg, no interchange, free, and the distance rounded to one decimal |
| RouteCalculator.Options | lib/route-calculator.ts:29-155 | four options under 3 km and three otherwise, all between the two stations |
| RouteCalculator.CalculateRoutes | lib/route-calculator.ts:27-158 | the result is sorted by duration, is a permutation of the pushed options, and keeps push order among equal durations |
| RouteCalculator.OptionOf | lib/route-calculator.ts:36-154 | the option built for a mode has that mode as its id |
| RouteCalculator.OptionsModes | lib/route-calculator.ts:29-155 | each offered mode's option is pushed exactly once and nothing else is pushed |
| RouteCalculator.CalculateRoutesModes | lib/route-calculator.ts:27-158 | every offered mode appears exactly once in the result, walking only under 3 km, each as the option built for it |
| RouteCalculator.BusNeverFirst | lib/route-calculator.ts:72-157 | the bus is never listed first, as the taxi is always quicker |
| RouteCalculator.BusSlowerThanTaxi | lib/route-calculator.ts:72-119 | the bus, with its waiting time, always takes longer than the taxi |
| RouteCalculator.TaxiDearest | lib/route-calculator.ts:73-143 | the taxi costs strictly more than every other option |
| Itinerary.ByCategory | lib/itinerary-generator.ts:8-14 | a category list is no longer than the place list |
| Itinerary.ByCategoryFilter | lib/itinerary-generator.ts:8-14 | a category list is the order-preserving filter of the places by that category |
| Itinerary.ByCategoryMembers | lib/itinerary-generator.ts:8-14 | a category list is a subsequence holding exactly the places of its category |
| Itinerary.ByCategoryPartition | lib/itinerary-generator.ts:8-14 | the five lists together hold every place exactly as often as the place list does |
| Itinerary.ByCategoryCount | lib/itinerary-generator.ts:8-14 | a category list holds each place of its category as often as the place list does, and no other place |
| Itinerary.ByCategoryDistinct | lib/itinerary-generator.ts:8-14 | without repeated places, a category list has none either |
| Itinerary.Nearest | lib/itinerary-generator.ts:25-34 | the scan settles on a place nearest to the last one, the earliest among equally near ones |
| Itinerary.Tour | lib/itinerary-generator.ts:23-38 | the loop visits every remaining place exactly once |
| Itinerary.OptimizeRoute | lib/itinerary-generator.ts:16-41 | a permutation of the input; inputs of length at most one unchanged; the first place kept first |
| Itinerary.TourStartsNearest | lib/itinerary-generator.ts:24-36 | no place of the tour is nearer to the start than its first place |
| Itinerary.NearestFirstCons | lib/itinerary-generator.ts:23-38 | a greedy route stays greedy behind a place it starts nearest to |
| Itinerary.TourGreedy | lib/itinerary-generator.ts:23-38 | every place of a tour is no farther from its predecessor than any place visited after it |
| Itinerary.OptimizeRouteGreedy | lib/itinerary-generator.ts:16-41 | the optimised route has that nearest-neighbour shape throughout |
| Numeric.RoundTenth | lib/itinerary-generator.ts:53 | the rounded value is within 0.05 of the input and a whole number of tenths |
| Itinerary.TourTiesEarliest | lib/itinerary-generator.ts:23-38 | of two places equally near to the previous stop, a tour visits first the one that came first in the remaining list |
| Itinerary.TiesStep | lib/itinerary-generator.ts:23-38 | the first choice, followed by a tour that breaks ties towards earlier places, breaks ties the same way |
| Itinerary.NearestTieLater | lib/itinerary-generator.ts:28-37 | a place as near as the chosen one that is still unvisited came after it in the remaining list |
| Itinerary.OptimizeRouteTiesEarliest | lib/itinerary-generator.ts:16-41 | the optimised route breaks every tie towards the place that came first in the input |
| Itinerary.TotalDistance | lib/itinerary-generator.ts:53 | the reported total is within 0.05 of the path length and has one decimal place at most |
| Itinerary.CalculateTotalDistance | lib/itinerary-generator.ts:43-54 | the loop sums consecutive distances and rounds; zero for fewer than two places |
| Itinerary.PathLengthNonNegative | lib/itinerary-generator.ts:43-52 | a path length is never negative when distances are not |
| Itinerary.Layout | lib/itinerary-generator.ts:56-155 | one slot list per day, four slots each |
| Itinerary.Pick | lib/itinerary-generator.ts:61-66 | a slot yields a place exactly when its category list is long enough, and the place is a place of that category |
| Itinerary.Picked | lib/itinerary-generator.ts:66 | a slot contributes at most one place |
| Itinerary.Picks | lib/itinerary-generator.ts:61-66 | at most one place per slot, all from the place list |
| Itinerary.PlanDay | lib/itinerary-generator.ts:68-74 | the day has its number, exactly the picked places, starting with the first pick, in nearest-neighbour order with ties broken towards the earlier pick, 90 minutes per place and the rounded path length |
| Itinerary.PlanDays | lib/itinerary-generator.ts:56-157 | one planned day per layout entry |
| Itinerary.PlanDaysAt | lib/itinerary-generator.ts:56-157 | day d is layout entry d planned as day number first + d |
| Itinerary.GenerateItinerary | lib/itinerary-generator.ts:56-157 | exactly `days` entries |
| Itinerary.GenerateItineraryDays | lib/itinerary-generator.ts:56-157 | days numbered 1 to `days`, at most four places each, all from the place list, 90 minutes per place |
| Itinerary.LayoutNeeds | lib/itinerary-generator.ts:59-155 | no layout asks for more than 3 historical, 3 cultural, 2 religious, 2 food and 2 nature places |
| Itinerary.FullDays | lib/itinerary-generator.ts:59-155 | with enough places in every category, every day has all four places |
| Itinerary.PicksAll | lib/itinerary-generator.ts:66 | when every slot can be filled, nothing is dropped |
| Itinerary.PickInjective | lib/itinerary-generator.ts:61-66 | over distinct places, a place is picked by one slot at most |
| Itinerary.PicksFrom | lib/itinerary-generator.ts:61-66 | each picked place comes from some slot |
| Itinerary.PicksDistinct | lib/itinerary-generator.ts:61-66 | distinct slots over distinct places pick distinct places |
| Itinerary.PicksAppend | lib/itinerary-generator.ts:61-66 | picking two slot lists one after the other is picking their concatenation |
| Itinerary.VisitsPicks | lib/itinerary-generator.ts:56-157 | the places visited over all days are, as a multiset, the picks of all the slots |
| Itinerary.LayoutDistinct | lib/itinerary-generator.ts:59-155 | no layout uses a slot twice |
| Itinerary.NoPlaceTwice | lib/itinerary-generator.ts:56-157 | over a trip of several days no place is visited twice, when the place list has no repeats |
| Cities.Table | lib/data/cities.ts:14-165 | twelve cities |
| Cities.GetCityById | lib/data/cities.ts:167-169 | nothing exactly when no city has that id; otherwise a city with that id |
| Cities.GetCityByName | lib/data/cities.ts:171-173 | nothing exactly when no city's name equals the given one ignoring case; otherwise such a city |
| Cities.TableKeysDistinct | lib/data/cities.ts:14-165 | no two cities share an id or a case-folded name |
| Cities.GetCityByOwnId | lib/data/cities.ts:167-169 | every city is found by its own id |
| Cities.GetCityByNameIgnoresCase | lib/data/cities.ts:171-173 | a city is found by a name exactly when the name equals its name ignoring case |
| Cities.DefaultCity | lib/data/cities.ts:15-27 | the table is not empty and Kolkata comes first, found by its id |
| TransportPage.Initial | app/transport/page.tsx:21-26 | the page starts with no results, no selection and no search, in a consistent state |
| TransportPage.StationById | app/transport/page.tsx:31-32 | nothing exactly when no station has the id; otherwise the first station with that id |
| TransportPage.HandleSearch | app/transport/page.tsx:30-44 | the selected ids are kept, and a consistent state stays consistent (at most three bus alternatives, a shown option selected after a search) |
| TransportPage.HandleSearchOutcome | app/transport/page.tsx:30-44 | with both ids known: the stations' sorted options, the first one selected, and the first min(3, n) of the sorted bus matches; otherwise nothing changes |
| TransportPage.SetFrom | app/transport/page.tsx:104-109 | picking an origin changes only the origin id and keeps a consistent state consistent |
| TransportPage.SetTo | app/transport/page.tsx:120-125 | picking a destination changes only the destination id and keeps a consistent state consistent |
| TransportPage.SelectRoute | app/transport/page.tsx:195-200 | clicking a card selects that card's option, changes nothing else, and keeps a consistent state consistent |
| TransportPage.HandleSwap | app/transport/page.tsx:46-52 | the ids are exchanged, results and the searched flag cleared, the selection kept |
| TransportPage.SwapTwice | app/transport/page.tsx:46-52 | swapping twice restores both ids |
| TransportPage.Fastest | app/transport/page.tsx:54 | nothing exactly for no options; otherwise an option no other is quicker than |
| TransportPage.Cheapest | app/transport/page.tsx:55 | nothing exactly for no options; otherwise an option no other is cheaper than |
| TransportPage.FastestTakesLastTie | app/transport/page.tsx:54 | among equally fast options the reduction keeps the last one |
| TransportPage.CheapestTakesLastTie | app/transport/page.tsx:55 | among equally cheap options the reduction keeps the last one |
| TransportPage.BadgesExclusive | app/transport/page.tsx:201-202 | no card carries both badges, and the cheap badge marks an option no other undercuts |
| TransportPage.FastestMatchesFirst | app/transport/page.tsx:35-54 | the fastest pick is as quick as the selected first option |
| ExplorePage.CurrentPlaces | app/explore/page.tsx:30 | the curated list for Kolkata; otherwise the city's generated places, or none |
| ExplorePage.GeneratePlaces | app/explore/page.tsx:34-40 | the generated places are stored under the selected city's id, replacing earlier ones, and every other city's entry is kept |
| ExplorePage.GenerateThenShow | app/explore/page.tsx:30-40 | after generating, a city other than Kolkata shows exactly the new places, Kolkata still shows its curated list, and every other city shows what it showed before |
| ExplorePage.CategoryTabsPartition | app/explore/page.tsx:44 | a listed place shows under the "all" tab and under exactly one category tab, its own |
| ExplorePage.MatchesSearch | app/explore/page.tsx:45-48 | a query written exactly as it appears in the name or the description matches |
| ExplorePage.MatchesSearchIgnoresCase | app/explore/page.tsx:45-48 | the search gives the same answer for a query and its lower-case form |
| ExplorePage.FilteredPlaces | app/explore/page.tsx:42-51 | an order-preserving subsequence holding exactly the places that pass the category and search tests, each as many times as it occurs in the input |
| ExplorePage.UnfilteredShowsAll | app/explore/page.tsx:44-49 | every category with an empty query shows every place |
| ExplorePage.SearchNarrows | app/explore/page.tsx:45-48 | a query that includes another matches only places the shorter one matches |
| ExplorePage.FilterNarrows | app/explore/page.tsx:42-51 | a longer query or a single category shows a subsequence of the list for all categories and the shorter query |
| BusStopSelect.FilteredStops | components/transport/bus-stop-select.tsx:21-25 | at most 50 stops, each from the list and containing the query ignoring case; with an empty query, the first min(50, n) stops |
| BusStopSelect.FilteredStopsIsCappedFilter | components/transport/bus-stop-select.tsx:24 | with a query, the list is the first 50 (at most) of the order-preserving filter |
| BusStopSelect.FilteredStopsComplete | components/transport/bus-stop-select.tsx:21-25 | when at most 50 stops match, every matching stop is listed |
| DayCard.Hours | components/plan/day-card.tsx:23 | the hours are the floor of minutes over 60 |
| DayCard.JsRem60 | components/plan/day-card.tsx:24 | the remainder takes the sign of the minutes and differs from them by a multiple of 60 |
| DayCard.FormatDuration | components/plan/day-card.tsx:22-26 | the label starts with the hours and "h ", and ends in "m" exactly when there are leftover minutes |
| DayCard.FormatDurationRoundTrip | components/plan/day-card.tsx:22-26 | reading the label of a non-negative duration back gives the duration: the label loses nothing |
| DayCard.MinutesShownIff | components/plan/day-card.tsx:24-25 | the label is just the hours and "h " exactly when the duration is a whole number of hours |
| DayCard.ParseHoursLabel | components/plan/day-card.tsx:25 | a whole-hours label reads back as its hours |
| DayCard.ParseMinutesLabel | components/plan/day-card.tsx:25 | a label with minutes reads back as hours and minutes |

## Left out

- The haversine `calculateDistance` (lib/route-calculator.ts:16-25) is trigonometry over floating point. The distance is a parameter.
- Floating point in general: distances and fares are reals. `Math.ceil` and `Math.round` are exact here, with no rounding error.
- The bundled JSON data (stations, bus routes, places) is not part of this model. It enters as parameters, so the hard-coded picks of `generateItinerary` are stated for any place list.
- `getAllStations` and `getAllBusRoutes` only return the bundled data, so they have no counterpart.
- AI place generation (the server action, the API route and the button), the zod schema of generated places, and the city context with its local storage: network, environment and library code.
- Presentation components, and the icon, colour and label fields of `transportTypes`.
- City taglines and descriptions (lib/data/cities.ts) are display copy and are not in the table.
- Unicode: lower- and upper-casing cover ASCII letters only. White space is space, tab, line feed, carriage return, vertical tab and form feed.
- UTF-16: JavaScript's string `sort` and `.length` count UTF-16 code units, while a Dafny `char` is a code point. The two agree inside the Basic Multilingual Plane; outside it the order of `getAllBusStops` and the two-character test of `searchBusStops` can differ.
- The explore page's `isFallbackData` flag only chooses a banner and is not modelled.
- RouteCalculator.MetroOption: requires the origin to be on at least one line. The code reads `lines[0].toUpperCase()` and throws a TypeError otherwise, and that crash is not modelled.
- RouteCalculator.CalculateRoutes: same requirement, for the same reason.
- TransportPage.HandleSearch: requires the origin to be on some line when both ids are known, because the search then calls `calculateRoutes`.
- TransportPage.HandleSearchOutcome: same requirement, for the same reason.
- RouteCalculator.BusNeverFirst and RouteCalculator.TaxiDearest: require a non-negative distance, which the haversine formula always yields.
- Itinerary.GenerateItinerary: takes `days` in 1..3, the parameter's declared type `1 | 2 | 3`.
- ExplorePage.CurrentPlaces: the selected city is its id, and the map of generated places stands for the React state.

=== FILE: bus_stop_select.dfy ===
/**
 * The stop picker's list (components/transport/bus-stop-select.tsx): the
 * stops that include the typed text, ignoring case, capped at fifty.
 */
module BusStopSelect {
  import opened Text
  import opened Seqs

  /** How many stops the picker lists at most. */
  const MaxListed: nat := 50

  /** The per-stop test: the lower-cased stop includes the lower-cased query. */
  predicate StopMatches(query: string, stop: string) {
    Contains(Lower(stop), Lower(query))
  }

  /**
   * `filteredStops`: the first fifty stops for an empty query, otherwise the
   * first fifty matching stops in list order.
   */
  function FilteredStops(stops: seq<string>, query: string): (r: seq<string>)
    ensures |r| <= MaxListed
    ensures query == "" ==> |r| == (if |stops| < MaxListed then |stops| else MaxListed) && r == stops[..|r|]
    ensures forall s :: s in r ==> s in stops && StopMatches(query, s)
  {
    if query == "" then
      forall s | s in stops ensures StopMatches(query, s) {
        ContainsTrivial(Lower(s));
      }
      Take(stops, MaxListed)
    else
      var matching := Filter(stops, (s: string) => StopMatches(query, s));
      SubsequenceMembers(matching, stops);
      Take(matching, MaxListed)
  }

  /**
   * The empty-query shortcut agrees with the general path: in every case the
   * list is the first fifty entries of the order-preserving filter.
   */
  lemma FilteredStopsIsCappedFilter(stops: seq<string>, query: string)
    ensures FilteredStops(stops, query) == Take(Filter(stops, (s: string) => StopMatches(query, s)), MaxListed)
  {
    if query == "" {
      forall i | 0 <= i < |stops| ensures StopMatches(query, stops[i]) {
        ContainsTrivial(Lower(stops[i]));
      }
      FilterAll(stops, (s: string) => StopMatches(query, s));
    }
  }

  /** Below the cap, every matching stop is listed. */
  lemma FilteredStopsComplete(stops: seq<string>, query: string)
    requires |Filter(stops, (s: string) => StopMatches(query, s))| <= MaxListed
    ensures forall s :: s in stops && StopMatches(query, s) ==> s in FilteredStops(stops, query)
  {
    FilteredStopsIsCappedFilter(stops, query);
    forall s | s in stops && StopMatches(query, s) ensures s in FilteredStops(stops, query) {
      var i :| 0 <= i < |stops| && stops[i] == s;
    }
  }
}

=== FILE: bus_utils.dfy ===
/**
 * The bus-stop matcher (lib/bus-utils.ts): stop-name normalisation, fuzzy
 * matching of a typed name against a stop, direct-route search with duration
 * and fare estimates, and the stop list behind the search box. The route list
 * is a parameter instead of the bundled fixture.
 */
module BusUtils {
  import opened Wrappers
  import opened Text
  import opened Seqs
  import Numeric

  datatype BusType = Regular | Ac

  datatype BusRoute = BusRoute(
    busNumber: string,
    startPoint: string,
    endPoint: string,
    stops: seq<string>,
    frequency: Option<string>,
    operatingHours: Option<string>,
    kind: BusType)

  datatype BusMatch = BusMatch(
    route: BusRoute,
    fromIndex: nat,
    toIndex: nat,
    stopsInBetween: seq<string>,
    estimatedDuration: int,
    estimatedFare: int)

  // ---------------------------------------------------------------------------
  // Normalisation
  // ---------------------------------------------------------------------------

  /** The words deleted from stop names, in the order the pattern tries them. */
  const Keywords: seq<string> := ["crossing", "xing", "more", "junction", "jn", "station", "stn"]

  /** A character that may appear in a normalised name. */
  predicate Clean(c: char) {
    !IsUpper(c) && c != '.' && c != '-' && (IsSpace(c) ==> c == ' ')
  }

  /** Every character of `s` may appear in a normalised name. */
  predicate AllClean(s: string) {
    forall i :: 0 <= i < |s| ==> Clean(s[i])
  }

  function NotDot(c: char): bool {
    c != '.'
  }

  /** Step `.replace(/\./g, "")`: the characters of `s` other than dots, in order. */
  function RemoveDots(s: string): (r: string)
    ensures |r| <= |s|
    decreases |s|
  {
    if s == [] then []
    else if s[0] == '.' then RemoveDots(s[1..])
    else [s[0]] + RemoveDots(s[1..])
  }

  /**
   * Deleting the dots is filtering on "not a dot": the result is a
   * subsequence without dots that keeps every other character.
   */
  lemma {:induction false} RemoveDotsFilter(s: string)
    ensures RemoveDots(s) == Filter(s, NotDot)
    decreases |s|
  {
    if s != [] {
      RemoveDotsFilter(s[1..]);
    }
  }

  function HyphensToSpaces(s: string): (r: string)
    ensures |r| == |s|
    ensures forall i :: 0 <= i < |s| ==> r[i] == (if s[i] == '-' then ' ' else s[i])
  {
    seq(|s|, i requires 0 <= i < |s| => if s[i] == '-' then ' ' else s[i])
  }

  function NotSpace(c: char): bool {
    !IsSpace(c)
  }

  /**
   * Step `.replace(/\s+/g, " ")`: every maximal run of white space becomes
   * one space (`CollapseSpaceChars`, `CollapseSpaceText` and
   * `CollapseSpaceNoDoubles` state what that leaves).
   */
  function CollapseSpace(s: string): (r: string)
    ensures |r| <= |s|
    ensures r == [] <==> s == []
    ensures r != [] ==> (IsSpace(r[0]) <==> IsSpace(s[0]))
    decreases |s|
  {
    if s == [] then []
    else if IsSpace(s[0]) then
      [' '] + CollapseSpace(TrimStart(s))
    else
      [s[0]] + CollapseSpace(s[1..])
  }

  /** Collapsing adds no character except the single space. */
  lemma {:induction false} CollapseSpaceChars(s: string)
    ensures forall i :: 0 <= i < |CollapseSpace(s)| ==>
              CollapseSpace(s)[i] == ' ' || (CollapseSpace(s)[i] in s && !IsSpace(CollapseSpace(s)[i]))
    decreases |s|
  {
    if s != [] {
      var r := CollapseSpace(s);
      if IsSpace(s[0]) {
        var t := TrimStart(s);
        TrimStartSpec(s);
        CollapseSpaceChars(t);
        assert r[1..] == CollapseSpace(t);
        forall i | 1 <= i < |r| ensures r[i] == ' ' || (r[i] in s && !IsSpace(r[i])) {
          assert r[i] == CollapseSpace(t)[i - 1];
          assert t == s[|s| - |t|..];
        }
      } else {
        CollapseSpaceChars(s[1..]);
        forall i | 1 <= i < |r| ensures r[i] == ' ' || (r[i] in s && !IsSpace(r[i])) {
          assert r[i] == CollapseSpace(s[1..])[i - 1];
        }
      }
    }
  }

  /** A run of white space followed by a non-space character collapses to one space. */
  predicate IsRun(w: string) {
    w != [] && forall i :: 0 <= i < |w| ==> IsSpace(w[i])
  }

  /**
   * A maximal run of white space, however long, becomes exactly one space,
   * and the text on either side is collapsed on its own.
   */
  lemma CollapseRun(u: string, w: string, v: string)
    requires u == [] || !IsSpace(u[|u| - 1])
    requires IsRun(w)
    requires v == [] || !IsSpace(v[0])
    ensures CollapseSpace(u + w + v) == CollapseSpace(u) + " " + CollapseSpace(v)
  {
    CollapseAppend(u, w + v);
    CollapseSpaceAppend(w, v);
    TrimStartRun(w, v);
    ConcatAssoc(u, w, v);
    ConcatAssoc(CollapseSpace(u), " ", CollapseSpace(v));
  }

  /** Collapsing splits at a boundary that follows a non-space character. */
  lemma {:induction false} CollapseAppend(u: string, r: string)
    requires u == [] || !IsSpace(u[|u| - 1])
    ensures CollapseSpace(u + r) == CollapseSpace(u) + CollapseSpace(r)
    decreases |u|
  {
    if u == [] {
      assert u + r == r;
    } else if IsSpace(u[0]) {
      TrimStartKeepsLast(u);
      CollapseAppend(TrimStart(u), r);
      CollapseAppendAfterSpace(u, r);
    } else {
      CollapseAppend(u[1..], r);
      CollapseAppendAfterChar(u, r);
    }
  }

  lemma CollapseAppendAfterSpace(u: string, r: string)
    requires u != [] && IsSpace(u[0]) && !IsSpace(u[|u| - 1])
    requires CollapseSpace(TrimStart(u) + r) == CollapseSpace(TrimStart(u)) + CollapseSpace(r)
    ensures CollapseSpace(u + r) == CollapseSpace(u) + CollapseSpace(r)
  {
    CollapseSpaceAppend(u, r);
    TrimStartAppend(u, r);
    CollapseSpaceSpace(u);
    ConcatAssoc([' '], CollapseSpace(TrimStart(u)), CollapseSpace(r));
  }

  lemma CollapseAppendAfterChar(u: string, r: string)
    requires u != [] && !IsSpace(u[0])
    requires CollapseSpace(u[1..] + r) == CollapseSpace(u[1..]) + CollapseSpace(r)
    ensures CollapseSpace(u + r) == CollapseSpace(u) + CollapseSpace(r)
  {
    CollapseConsAppend(u, r);
    CollapseSpaceCons(u[0], u[1..]);
    HeadTail(u);
    ConcatAssoc([u[0]], CollapseSpace(u[1..]), CollapseSpace(r));
  }

  /** White space at the front of `u + r` becomes one space before the rest is collapsed. */
  lemma CollapseSpaceAppend(u: string, r: string)
    requires u != [] && IsSpace(u[0])
    ensures CollapseSpace(u + r) == [' '] + CollapseSpace(TrimStart(u + r))
  {
    assert (u + r)[0] == u[0];
    CollapseSpaceSpace(u + r);
  }

  /** The non-space first character of `u + r` is kept, and the rest is collapsed. */
  lemma CollapseConsAppend(u: string, r: string)
    requires u != [] && !IsSpace(u[0])
    ensures CollapseSpace(u + r) == [u[0]] + CollapseSpace(u[1..] + r)
  {
    assert u + r == [u[0]] + (u[1..] + r);
    CollapseSpaceCons(u[0], u[1..] + r);
  }

  /** White space in front becomes one space before the rest is collapsed. */
  lemma CollapseSpaceSpace(s: string)
    requires s != [] && IsSpace(s[0])
    ensures CollapseSpace(s) == [' '] + CollapseSpace(TrimStart(s))
  {
  }

  /** A non-space character in front is kept as it is. */
  lemma CollapseSpaceCons(c: char, s: string)
    requires !IsSpace(c)
    ensures CollapseSpace([c] + s) == [c] + CollapseSpace(s)
  {
    assert ([c] + s)[1..] == s;
  }

  /** Collapsing leaves no two spaces side by side. */
  lemma {:induction false} CollapseSpaceNoDoubles(s: string)
    ensures forall i :: 0 <= i < |CollapseSpace(s)| - 1 ==>
              !(CollapseSpace(s)[i] == ' ' && CollapseSpace(s)[i + 1] == ' ')
    decreases |s|
  {
    if s != [] {
      var r := CollapseSpace(s);
      if IsSpace(s[0]) {
        var t := TrimStart(s);
        CollapseSpaceNoDoubles(t);
        assert r[1..] == CollapseSpace(t);
      } else {
        CollapseSpaceNoDoubles(s[1..]);
        assert r[1..] == CollapseSpace(s[1..]);
      }
    }
  }

  /** Collapsing keeps every non-space character, in order. */
  lemma {:induction false} CollapseSpaceText(s: string)
    ensures Filter(CollapseSpace(s), NotSpace) == Filter(s, NotSpace)
    decreases |s|
  {
    if s != [] {
      var r := CollapseSpace(s);
      if IsSpace(s[0]) {
        var t := TrimStart(s);
        CollapseSpaceText(t);
        TrimStartSpec(s);
        SpacePrefixFilter(s, |s| - |t|);
        assert r[1..] == CollapseSpace(t);
      } else {
        CollapseSpaceText(s[1..]);
        assert r[1..] == CollapseSpace(s[1..]);
      }
    }
  }

  /** White space at the front contributes nothing to the non-space characters. */
  lemma {:induction false} SpacePrefixFilter(s: string, n: nat)
    requires n <= |s|
    requires forall i :: 0 <= i < n ==> IsSpace(s[i])
    ensures Filter(s, NotSpace) == Filter(s[n..], NotSpace)
    decreases n
  {
    if n > 0 {
      SpacePrefixFilter(s[1..], n - 1);
      assert s[1..][n - 1..] == s[n..];
    }
  }

  /** The keyword that starts `s`, if any, trying the alternatives in pattern order. */
  function KeywordAt(s: string): (r: Option<string>)
    ensures r.Some? ==> IsPrefix(r.value, s) && r.value != []
  {
    KeywordFrom(s, 0)
  }

  function KeywordFrom(s: string, i: nat): (r: Option<string>)
    requires i <= |Keywords|
    ensures r.Some? ==> IsPrefix(r.value, s) && r.value != []
    decreases |Keywords| - i
  {
    if i == |Keywords| then None
    else if IsPrefix(Keywords[i], s) then Some(Keywords[i])
    else KeywordFrom(s, i + 1)
  }

  lemma {:induction false} KeywordFromFound(s: string, i: nat)
    requires i <= |Keywords|
    ensures KeywordFrom(s, i).Some? ==> KeywordFrom(s, i).value in Keywords
    ensures KeywordFrom(s, i).None? ==> forall j :: i <= j < |Keywords| ==> !IsPrefix(Keywords[j], s)
    decreases |Keywords| - i
  {
    if i < |Keywords| && !IsPrefix(Keywords[i], s) {
      KeywordFromFound(s, i + 1);
    }
  }

  /** What `KeywordAt` finds is a keyword; when it finds none, no keyword starts `s`. */
  lemma KeywordAtFound(s: string)
    ensures KeywordAt(s).Some? ==> KeywordAt(s).value in Keywords
    ensures KeywordAt(s).None? ==> forall j :: 0 <= j < |Keywords| ==> !IsPrefix(Keywords[j], s)
  {
    KeywordFromFound(s, 0);
  }

  /** No keyword is a prefix of another one. */
  lemma KeywordsPrefixFree()
    ensures forall i, j :: 0 <= i < |Keywords| && 0 <= j < |Keywords| && i != j ==>
              !IsPrefix(Keywords[i], Keywords[j])
  {
    forall i, j | 0 <= i < |Keywords| && 0 <= j < |Keywords| && i != j
      ensures !IsPrefix(Keywords[i], Keywords[j])
    {
      var a, b := Keywords[i], Keywords[j];
      if |a| <= |b| {
        assert b[..|a|][0] == b[0] && b[..|a|][1] == b[1];
        if |a| >= 3 {
          assert b[..|a|][2] == b[2];
        }
      }
    }
  }

  /** At most one alternative of the pattern can match at any position. */
  lemma KeywordsExclusive(a: string, b: string, s: string)
    requires a in Keywords && b in Keywords
    requires IsPrefix(a, s) && IsPrefix(b, s)
    ensures a == b
  {
    KeywordsPrefixFree();
    if |a| <= |b| {
      PrefixesAgree(a, b, s);
    } else {
      PrefixesAgree(b, a, s);
    }
  }

  /**
   * Step `.replace(/crossing|xing|more|junction|jn|station|stn/gi, "")`:
   * scanning left to right, a keyword starting at the current position is
   * deleted and scanning resumes after it; otherwise the character is kept.
   */
  function StripWords(s: string): (r: string)
    ensures |r| <= |s|
    decreases |s|, 1
  {
    if s == [] then [] else StripAt(s)
  }

  /** One step of the scan at the front of a non-empty `s`. */
  function StripAt(s: string): (r: string)
    requires s != []
    ensures |r| <= |s|
    decreases |s|, 0
  {
    match KeywordAt(s)
    case Some(k) => StripWords(s[|k|..])
    case None => [s[0]] + StripWords(s[1..])
  }

  /** Deleting keywords only deletes: what is left is a subsequence of the input. */
  lemma {:induction false} StripWordsSubsequence(s: string)
    ensures IsSubsequence(StripWords(s), s)
    decreases |s|
  {
    if s != [] {
      assert StripWords(s) == StripAt(s);
      match KeywordAt(s)
      case Some(k) =>
        StripWordsSubsequence(s[|k|..]);
        StripSuffixSubsequence(StripWords(s[|k|..]), s, |k|);
      case None =>
        StripWordsSubsequence(s[1..]);
        assert ([s[0]] + StripWords(s[1..]))[1..] == StripWords(s[1..]);
    }
  }

  lemma {:induction false} StripSuffixSubsequence(a: string, s: string, n: nat)
    requires n <= |s| && IsSubsequence(a, s[n..])
    ensures IsSubsequence(a, s)
    decreases n
  {
    if n > 0 {
      StripSuffixSubsequence(a, s[1..], n - 1);
      assert s[1..][n - 1..] == s[n..];
      SubsequenceCons(a, s[1..], s[0]);
      assert [s[0]] + s[1..] == s;
    }
  }

  /** A keyword at the front is always deleted, whatever follows it. */
  lemma StripWordsKeyword(k: string, s: string)
    requires k in Keywords
    ensures StripWords(k + s) == StripWords(s)
  {
    var t := k + s;
    assert IsPrefix(k, t);
    KeywordAtFound(t);
    assert KeywordAt(t).Some? by {
      var i :| 0 <= i < |Keywords| && Keywords[i] == k;
    }
    KeywordsExclusive(k, KeywordAt(t).value, t);
    assert t[|k|..] == s;
    assert StripWords(t) == StripAt(t);
  }

  /** A string in which no keyword occurs passes through unchanged. */
  lemma {:induction false} StripWordsNoKeyword(s: string)
    requires forall i, j :: 0 <= i < |s| && 0 <= j < |Keywords| ==> !IsPrefix(Keywords[j], s[i..])
    ensures StripWords(s) == s
    decreases |s|
  {
    if s != [] {
      assert s[0..] == s;
      KeywordAtFound(s);
      assert StripWords(s) == StripAt(s);
      forall i, j | 0 <= i < |s[1..]| && 0 <= j < |Keywords|
        ensures !IsPrefix(Keywords[j], s[1..][i..])
      {
        assert s[1..][i..] == s[i + 1..];
      }
      StripWordsNoKeyword(s[1..]);
    }
  }

  /** The first four steps: lower-case, drop dots, hyphens to spaces, collapse white space. */
  function Prepare(stop: string): string {
    CollapseSpace(HyphensToSpaces(RemoveDots(Lower(stop))))
  }

  /** After the first four steps no capital, dot, hyphen or white space other than a plain space is left. */
  lemma PrepareClean(stop: string)
    ensures AllClean(Prepare(stop))
  {
    var lowered := Lower(stop);
    var undotted := RemoveDots(lowered);
    RemoveDotsFilter(lowered);
    SubsequenceMembers(undotted, lowered);
    var unhyphened := HyphensToSpaces(undotted);
    assert forall i :: 0 <= i < |unhyphened| ==> !IsUpper(unhyphened[i]) && unhyphened[i] != '.' && unhyphened[i] != '-' by {
      forall i | 0 <= i < |unhyphened| ensures !IsUpper(unhyphened[i]) && unhyphened[i] != '.' && unhyphened[i] != '-' {
        assert undotted[i] in lowered;
        assert undotted[i] in undotted;
      }
    }
    var r := CollapseSpace(unhyphened);
    CollapseSpaceChars(unhyphened);
    forall i | 0 <= i < |r| ensures Clean(r[i]) {
      if r[i] != ' ' {
        var j :| 0 <= j < |unhyphened| && unhyphened[j] == r[i];
      }
    }
  }

  /**
   * `normalizeStop`: lower-case, drop dots, hyphens to spaces, collapse white
   * space, delete the keywords, trim.
   */
  function Normalize(stop: string): (r: string)
    ensures |r| <= |stop|
    ensures r != [] ==> !IsSpace(r[|r| - 1])
  {
    Trim(StripWords(Prepare(stop)))
  }

  /**
   * No capital, dot, hyphen or white space other than a plain space survives
   * normalisation, and a normalised name neither starts nor ends with a space.
   */
  lemma NormalizeClean(stop: string)
    ensures AllClean(Normalize(stop))
    ensures Normalize(stop) != [] ==> Normalize(stop)[0] != ' ' && Normalize(stop)[|Normalize(stop)| - 1] != ' '
  {
    var prepared := Prepare(stop);
    PrepareClean(stop);
    var stripped := StripWords(prepared);
    StripWordsSubsequence(prepared);
    SubsequenceMembers(stripped, prepared);
    assert AllClean(stripped) by {
      forall i | 0 <= i < |stripped| ensures Clean(stripped[i]) {
        assert stripped[i] in prepared;
      }
    }
    var r := Trim(stripped);
    TrimSpec(stripped);
    forall i | 0 <= i < |r| ensures Clean(r[i]) {
      assert r[i] in r;
    }
  }

  // ---------------------------------------------------------------------------
  // Matching
  // ---------------------------------------------------------------------------

  /** One word includes the other, either way round. */
  predicate Overlap(a: string, b: string) {
    Contains(b, a) || Contains(a, b)
  }

  /** `stopWords.some(sw => sw.includes(qw) || qw.includes(sw))`. */
  predicate OverlapsSome(qw: string, ss: seq<string>)
    decreases |ss|
  {
    ss != [] && (Overlap(qw, ss[0]) || OverlapsSome(qw, ss[1..]))
  }

  /** `queryWords.some(qw => ...)`: some word of one list overlaps some word of the other. */
  predicate WordsOverlap(qs: seq<string>, ss: seq<string>)
    decreases |qs|
  {
    qs != [] && (OverlapsSome(qs[0], ss) || WordsOverlap(qs[1..], ss))
  }

  lemma {:induction false} OverlapsSomeIndex(qw: string, ss: seq<string>)
    ensures OverlapsSome(qw, ss) <==> exists j :: 0 <= j < |ss| && Overlap(qw, ss[j])
    decreases |ss|
  {
    if ss != [] {
      OverlapsSomeIndex(qw, ss[1..]);
      if OverlapsSome(qw, ss) && !Overlap(qw, ss[0]) {
        var j :| 0 <= j < |ss[1..]| && Overlap(qw, ss[1..][j]);
        assert Overlap(qw, ss[j + 1]);
      }
      if exists j :: 0 <= j < |ss| && Overlap(qw, ss[j]) {
        var j :| 0 <= j < |ss| && Overlap(qw, ss[j]);
        if j > 0 {
          assert ss[1..][j - 1] == ss[j];
        }
      }
    }
  }

  /** The recursive word test holds exactly when some pair of words overlaps. */
  lemma {:induction false} WordsOverlapIndex(qs: seq<string>, ss: seq<string>)
    ensures WordsOverlap(qs, ss) <==>
              exists i, j :: 0 <= i < |qs| && 0 <= j < |ss| && Overlap(qs[i], ss[j])
    decreases |qs|
  {
    if qs != [] {
      WordsOverlapIndex(qs[1..], ss);
      OverlapsSomeIndex(qs[0], ss);
      if WordsOverlap(qs, ss) {
        if OverlapsSome(qs[0], ss) {
          var j :| 0 <= j < |ss| && Overlap(qs[0], ss[j]);
          assert Overlap(qs[0], ss[j]);
        } else {
          var i, j :| 0 <= i < |qs[1..]| && 0 <= j < |ss| && Overlap(qs[1..][i], ss[j]);
          assert Overlap(qs[i + 1], ss[j]);
        }
      }
      if exists i, j :: 0 <= i < |qs| && 0 <= j < |ss| && Overlap(qs[i], ss[j]) {
        var i, j :| 0 <= i < |qs| && 0 <= j < |ss| && Overlap(qs[i], ss[j]);
        if i > 0 {
          assert qs[1..][i - 1] == qs[i];
        }
      }
    }
  }

  /** The three tests of `matchesStop`, on names already normalised. */
  predicate NormalizedMatch(nq: string, ns: string) {
    || ns == nq
    || Contains(ns, nq)
    || Contains(nq, ns)
    || WordsOverlap(Split(nq, ' '), Split(ns, ' '))
  }

  /**
   * `matchesStop`: after normalisation the two names are equal, one includes
   * the other, or a word of one includes or is included in a word of the other
   * (words being the pieces between single spaces).
   */
  predicate MatchesStop(query: string, stop: string)
    ensures Normalize(query) == Normalize(stop) ==> MatchesStop(query, stop)
    ensures Normalize(query) == [] ==> MatchesStop(query, stop)
  {
    ContainsTrivial(Normalize(stop));
    NormalizedMatch(Normalize(query), Normalize(stop))
  }

  /** Every name matches itself. */
  lemma MatchesStopReflexive(s: string)
    ensures MatchesStop(s, s)
  {
  }

  /** Word overlap does not depend on which list is the query's. */
  lemma WordsOverlapSymmetric(qs: seq<string>, ss: seq<string>)
    ensures WordsOverlap(qs, ss) <==> WordsOverlap(ss, qs)
  {
    WordsOverlapIndex(qs, ss);
    WordsOverlapIndex(ss, qs);
    if WordsOverlap(qs, ss) {
      var i, j :| 0 <= i < |qs| && 0 <= j < |ss| && Overlap(qs[i], ss[j]);
      assert Overlap(ss[j], qs[i]);
    }
    if WordsOverlap(ss, qs) {
      var i, j :| 0 <= i < |ss| && 0 <= j < |qs| && Overlap(ss[i], qs[j]);
      assert Overlap(qs[j], ss[i]);
    }
  }

  /** Matching does not depend on which name is the query. */
  lemma MatchesStopSymmetric(a: string, b: string)
    ensures MatchesStop(a, b) <==> MatchesStop(b, a)
  {
    WordsOverlapSymmetric(Split(Normalize(a), ' '), Split(Normalize(b), ' '));
  }

  /** A query that normalises to nothing matches every stop. */
  lemma EmptyQueryMatchesAll(query: string, stop: string)
    requires Normalize(query) == []
    ensures MatchesStop(query, stop)
  {
    ContainsTrivial(Normalize(stop));
  }

  /** A doubled separator leaves an empty piece after the first one. */
  lemma {:induction false} SplitDoubledSeparator(s: string, sep: char, i: nat)
    requires OccursAt(s, [sep, sep], i)
    ensures [] in Split(s, sep)[1..]
    decreases i
  {
    if i == 0 {
      assert s[0] == sep && s[1] == sep;
      assert Split(s, sep)[1..] == Split(s[1..], sep);
      assert s[1..][0] == sep;
      assert Split(s[1..], sep) == [[]] + Split(s[1..][1..], sep);
    } else {
      assert s[1..][i - 1..i + 1] == s[i..i + 2];
      SplitDoubledSeparator(s[1..], sep, i - 1);
    }
  }

  /**
   * A name whose normalised form holds two spaces in a row (what deleting a
   * keyword between two words leaves) splits into an empty word, and the empty
   * word is included in every word: such a query matches every stop.
   */
  lemma DoubledSpaceMatchesAll(query: string, stop: string)
    requires Contains(Normalize(query), "  ")
    ensures MatchesStop(query, stop)
  {
    DoubledSpaceOverlaps(Normalize(query), Normalize(stop));
  }

  lemma DoubledSpaceOverlaps(nq: string, ns: string)
    requires Contains(nq, "  ")
    ensures WordsOverlap(Split(nq, ' '), Split(ns, ' '))
  {
    ContainsOccurs(nq, "  ");
    var i :| OccursAt(nq, "  ", i);
    SplitDoubledSeparator(nq, ' ', i);
    var wq, ws := Split(nq, ' '), Split(ns, ' ');
    var k :| 0 <= k < |wq[1..]| && wq[1..][k] == [];
    ContainsTrivial(ws[0]);
    assert Overlap(wq[k + 1], ws[0]);
    WordsOverlapIndex(wq, ws);
  }

  /**
   * `findStopIndex`: scans the stops in order and answers the index of the
   * first one matching the query, or -1 (`FindStopIndexFirst` states what it
   * finds).
   */
  function FindStopIndex(stops: seq<string>, query: string): (r: int)
    ensures -1 <= r < |stops|
  {
    FindStopFrom(stops, query, 0)
  }

  /** The loop of `findStopIndex` from position `i` on: the loop test. */
  function FindStopFrom(stops: seq<string>, query: string, i: nat): (r: int)
    requires i <= |stops|
    ensures r == -1 || i <= r < |stops|
    decreases |stops| - i, 1
  {
    if i == |stops| then -1 else FindStopStep(stops, query, i)
  }

  /** The loop body: answer `i` when its stop matches, otherwise go on. */
  function FindStopStep(stops: seq<string>, query: string, i: nat): (r: int)
    requires i < |stops|
    ensures r == -1 || i <= r < |stops|
    decreases |stops| - i, 0
  {
    if MatchesStop(query, stops[i]) then i else FindStopFrom(stops, query, i + 1)
  }

  /** When the loop answers an index, that stop matches and no stop before it from `i` on does. */
  lemma {:induction false} FindStopFromFound(stops: seq<string>, query: string, i: nat)
    requires i <= |stops| && FindStopFrom(stops, query, i) != -1
    ensures MatchesStop(query, stops[FindStopFrom(stops, query, i)])
    ensures forall k :: i <= k < FindStopFrom(stops, query, i) ==> !MatchesStop(query, stops[k])
    decreases |stops| - i
  {
    assert FindStopFrom(stops, query, i) == FindStopStep(stops, query, i);
    if !MatchesStop(query, stops[i]) {
      FindStopFromFound(stops, query, i + 1);
    }
  }

  /** When the loop answers -1, no stop from `i` on matches. */
  lemma {:induction false} FindStopFromNone(stops: seq<string>, query: string, i: nat)
    requires i <= |stops| && FindStopFrom(stops, query, i) == -1
    ensures forall k :: i <= k < |stops| ==> !MatchesStop(query, stops[k])
    decreases |stops| - i
  {
    if i < |stops| {
      assert FindStopFrom(stops, query, i) == FindStopStep(stops, query, i);
      FindStopFromNone(stops, query, i + 1);
    }
  }

  /**
   * The index found is -1 exactly when no stop matches; otherwise its stop
   * matches and no earlier stop does.
   */
  lemma FindStopIndexFirst(stops: seq<string>, query: string)
    ensures FindStopIndex(stops, query) == -1 <==> forall k :: 0 <= k < |stops| ==> !MatchesStop(query, stops[k])
    ensures FindStopIndex(stops, query) != -1 ==> MatchesStop(query, stops[FindStopIndex(stops, query)])
    ensures forall k :: 0 <= k < FindStopIndex(stops, query) ==> !MatchesStop(query, stops[k])
  {
    if FindStopIndex(stops, query) == -1 {
      FindStopFromNone(stops, query, 0);
    } else {
      FindStopFromFound(stops, query, 0);
    }
  }

  // ---------------------------------------------------------------------------
  // Estimates
  // ---------------------------------------------------------------------------

  /**
   * `calculateDuration`: `Math.ceil(n * 2.5)` minutes on an AC bus and
   * `Math.ceil(n * 3.5)` on a regular one, for `n` stops.
   */
  function Duration(stopsCount: nat, isAc: bool): (r: int)
    ensures isAc ==> 5 * stopsCount <= 2 * r < 5 * stopsCount + 2
    ensures !isAc ==> 7 * stopsCount <= 2 * r < 7 * stopsCount + 2
  {
    Numeric.Ceil(stopsCount as real * (if isAc then 2.5 else 3.5))
  }

  /** An AC bus is never estimated slower than a regular one over the same stops. */
  lemma AcNotSlower(n: nat)
    ensures Duration(n, true) <= Duration(n, false)
  {
  }

  /**
   * `calculateFare`: `min(30 + 2n, 80)` rupees on an AC bus and `min(8 + n, 25)`
   * on a regular one.
   */
  function Fare(stopsCount: nat, isAc: bool): (r: int)
    ensures isAc ==> 30 <= r <= 80 && r <= 30 + 2 * stopsCount
    ensures !isAc ==> 8 <= r <= 25 && r <= 8 + stopsCount
    ensures isAc && stopsCount <= 25 ==> r == 30 + 2 * stopsCount
    ensures !isAc && stopsCount <= 17 ==> r == 8 + stopsCount
    ensures isAc && stopsCount >= 25 ==> r == 80
    ensures !isAc && stopsCount >= 17 ==> r == 25
  {
    if isAc then Numeric.Min(30 + stopsCount * 2, 80) else Numeric.Min(8 + stopsCount, 25)
  }

  /** More stops never cost less. */
  lemma FareMonotone(m: nat, n: nat, isAc: bool)
    requires m <= n
    ensures Fare(m, isAc) <= Fare(n, isAc)
  {
  }

  // ---------------------------------------------------------------------------
  // Direct-route search
  // ---------------------------------------------------------------------------

  /** Both names are found on the route, the origin strictly before the destination. */
  predicate Connects(route: BusRoute, from: string, to: string) {
    var fi := FindStopIndex(route.stops, from);
    var ti := FindStopIndex(route.stops, to);
    fi != -1 && ti != -1 && fi < ti
  }

  /** The match record built for a connecting route. */
  function MatchOf(route: BusRoute, from: string, to: string): (m: BusMatch)
    requires Connects(route, from, to)
    ensures m.route == route && IsMatchFor(m, from, to)
  {
    var fi := FindStopIndex(route.stops, from);
    var ti := FindStopIndex(route.stops, to);
    var between := route.stops[fi..ti + 1];
    var isAc := route.kind == Ac;
    BusMatch(route, fi, ti, between, Duration(|between|, isAc), Fare(|between|, isAc))
  }

  /**
   * What a match reports about its route: the first stops matching each name,
   * origin before destination, the inclusive ride between them (at least two
   * stops) and estimates computed from its length and the bus type
   * (`MatchEnds` adds that the ride starts and ends at matching stops).
   */
  predicate IsMatchFor(m: BusMatch, from: string, to: string) {
    var n := |m.stopsInBetween|;
    && IsRideFor(m, from, to)
    && m.estimatedDuration == Duration(n, m.route.kind == Ac)
    && m.estimatedFare == Fare(n, m.route.kind == Ac)
  }

  /** The stop part of `IsMatchFor`: where the ride starts and ends on its route. */
  predicate IsRideFor(m: BusMatch, from: string, to: string) {
    var stops := m.route.stops;
    && m.fromIndex == FindStopIndex(stops, from)
    && m.toIndex == FindStopIndex(stops, to)
    && m.fromIndex < m.toIndex < |stops|
    && m.stopsInBetween == stops[m.fromIndex..m.toIndex + 1]
    && |m.stopsInBetween| == m.toIndex - m.fromIndex + 1 >= 2
  }

  /**
   * The ride starts at a stop matching the origin and ends at one matching the
   * destination, and no stop before the boarding one matches the origin.
   */
  lemma MatchEnds(m: BusMatch, from: string, to: string)
    requires IsRideFor(m, from, to)
    ensures MatchesStop(from, m.stopsInBetween[0])
    ensures MatchesStop(to, m.stopsInBetween[|m.stopsInBetween| - 1])
    ensures forall k :: 0 <= k < m.fromIndex ==> !MatchesStop(from, m.route.stops[k])
  {
    RideEnds(m, from, to);
    FindStopIndexFirst(m.route.stops, from);
    FindStopIndexFirst(m.route.stops, to);
  }

  lemma RideEnds(m: BusMatch, from: string, to: string)
    requires IsRideFor(m, from, to)
    ensures m.stopsInBetween[0] == m.route.stops[m.fromIndex]
    ensures m.stopsInBetween[|m.stopsInBetween| - 1] == m.route.stops[m.toIndex]
  {
    SliceEnds(m.route.stops, m.fromIndex, m.toIndex + 1);
  }

  function RoutesOf(ms: seq<BusMatch>): (r: seq<BusRoute>)
    ensures |r| == |ms|
    ensures forall i :: 0 <= i < |ms| ==> r[i] == ms[i].route
  {
    seq(|ms|, i requires 0 <= i < |ms| => ms[i].route)
  }

  /** The matches in route order, before sorting: one per connecting route. */
  function Candidates(routes: seq<BusRoute>, from: string, to: string): (r: seq<BusMatch>)
    ensures |r| <= |routes|
    decreases |routes|
  {
    if routes == [] then []
    else if Connects(routes[0], from, to) then [MatchOf(routes[0], from, to)] + Candidates(routes[1..], from, to)
    else Candidates(routes[1..], from, to)
  }

  /** Every candidate is the match record of a connecting route. */
  lemma {:induction false} CandidatesMatch(routes: seq<BusRoute>, from: string, to: string)
    ensures forall m :: m in Candidates(routes, from, to) ==>
              Connects(m.route, from, to) && m == MatchOf(m.route, from, to)
    decreases |routes|
  {
    if routes != [] {
      CandidatesMatch(routes[1..], from, to);
    }
  }

  /** The candidates' routes are the connecting routes, in route order. */
  lemma {:induction false} CandidatesRoutes(routes: seq<BusRoute>, from: string, to: string)
    ensures IsSubsequence(RoutesOf(Candidates(routes, from, to)), routes)
    decreases |routes|
  {
    if routes != [] {
      CandidatesRoutes(routes[1..], from, to);
      var c := Candidates(routes, from, to);
      var rest := Candidates(routes[1..], from, to);
      if Connects(routes[0], from, to) {
        assert RoutesOf(c)[1..] == RoutesOf(rest);
      } else {
        SubsequenceCons(RoutesOf(rest), routes[1..], routes[0]);
        assert [routes[0]] + routes[1..] == routes;
      }
    }
  }

  /** No connecting route is missed. */
  lemma {:induction false} CandidatesComplete(routes: seq<BusRoute>, from: string, to: string)
    ensures forall rt :: rt in routes && Connects(rt, from, to) ==> rt in RoutesOf(Candidates(routes, from, to))
    decreases |routes|
  {
    if routes != [] {
      CandidatesComplete(routes[1..], from, to);
      var c := Candidates(routes, from, to);
      var rest := Candidates(routes[1..], from, to);
      if Connects(routes[0], from, to) {
        assert RoutesOf(c) == [routes[0]] + RoutesOf(rest);
      }
    }
  }

  function DurationKey(m: BusMatch): int {
    m.estimatedDuration
  }

  /**
   * `findBusRoutes`: one match per route on which the origin is found before
   * the destination, fastest first, ties kept in route order.
   */
  function FindBusRoutes(routes: seq<BusRoute>, from: string, to: string): (r: seq<BusMatch>)
    ensures SortedBy(r, DurationKey)
    ensures multiset(r) == multiset(Candidates(routes, from, to))
    ensures forall k :: WithKey(r, DurationKey, k) == WithKey(Candidates(routes, from, to), DurationKey, k)
    ensures |r| <= |routes|
  {
    SortBy(Candidates(routes, from, to), DurationKey)
  }

  /** Two sequences with one multiset have the same elements. */
  lemma SameElements<T>(a: seq<T>, b: seq<T>)
    requires multiset(a) == multiset(b)
    ensures forall x :: x in a <==> x in b
  {
    forall x ensures x in a <==> x in b {
      assert x in a <==> x in multiset(a);
      assert x in b <==> x in multiset(b);
    }
  }

  /** Every result is the match record of its route, which connects the two names. */
  lemma FindBusRoutesSound(routes: seq<BusRoute>, from: string, to: string)
    ensures forall m :: m in FindBusRoutes(routes, from, to) ==>
              Connects(m.route, from, to) && m == MatchOf(m.route, from, to) && IsMatchFor(m, from, to)
  {
    CandidatesMatch(routes, from, to);
    SameElements(FindBusRoutes(routes, from, to), Candidates(routes, from, to));
  }

  /** Every route of the list on which the origin is found before the destination is offered. */
  lemma FindBusRoutesOffersAll(routes: seq<BusRoute>, from: string, to: string)
    ensures forall rt :: rt in routes && Connects(rt, from, to) ==> rt in RoutesOf(FindBusRoutes(routes, from, to))
  {
    var c := Candidates(routes, from, to);
    var r := FindBusRoutes(routes, from, to);
    CandidatesComplete(routes, from, to);
    SameElements(r, c);
    forall rt | rt in RoutesOf(c) ensures rt in RoutesOf(r) {
      var k :| 0 <= k < |c| && RoutesOf(c)[k] == rt;
      assert c[k] in r;
      var j :| 0 <= j < |r| && r[j] == c[k];
      assert RoutesOf(r)[j] == rt;
    }
  }

  /** Only routes on which the origin is found before the destination are offered. */
  lemma FindBusRoutesOnlyConnecting(routes: seq<BusRoute>, from: string, to: string)
    ensures forall rt :: rt in RoutesOf(FindBusRoutes(routes, from, to)) ==> Connects(rt, from, to)
  {
    var c := Candidates(routes, from, to);
    var r := FindBusRoutes(routes, from, to);
    CandidatesMatch(routes, from, to);
    SameElements(r, c);
    forall rt | rt in RoutesOf(r) ensures Connects(rt, from, to) {
      var j :| 0 <= j < |r| && RoutesOf(r)[j] == rt;
      assert r[j] in c;
    }
  }

  /** A route of the list is offered exactly when the origin is found on it before the destination. */
  lemma FindBusRoutesComplete(routes: seq<BusRoute>, from: string, to: string)
    ensures forall rt :: rt in routes ==>
              (Connects(rt, from, to) <==> rt in RoutesOf(FindBusRoutes(routes, from, to)))
  {
    FindBusRoutesOffersAll(routes, from, to);
    FindBusRoutesOnlyConnecting(routes, from, to);
  }

  /** Over a route list without repeats, no route is offered twice. */
  lemma FindBusRoutesNoRepeats(routes: seq<BusRoute>, from: string, to: string)
    requires Distinct(routes)
    ensures Distinct(RoutesOf(FindBusRoutes(routes, from, to)))
  {
    var c := Candidates(routes, from, to);
    var r := FindBusRoutes(routes, from, to);
    CandidatesRoutes(routes, from, to);
    SubsequenceMultiset(RoutesOf(c), routes);
    DistinctPermutation(RoutesOf(c), routes);
    assert Distinct(c) by {
      forall i, j | 0 <= i < j < |c| ensures c[i] != c[j] {
        assert RoutesOf(c)[i] != RoutesOf(c)[j];
      }
    }
    DistinctPermutation(r, c);
    FindBusRoutesSound(routes, from, to);
    forall i, j | 0 <= i < j < |r| ensures RoutesOf(r)[i] != RoutesOf(r)[j] {
      assert r[i] in r && r[j] in r;
    }
  }

  /** Direction is enforced: a route offered from `a` to `b` is never offered from `b` to `a`. */
  lemma OneWay(routes: seq<BusRoute>, a: string, b: string, m: BusMatch)
    requires m in FindBusRoutes(routes, a, b)
    ensures forall m' :: m' in FindBusRoutes(routes, b, a) ==> m'.route != m.route
  {
    FindBusRoutesSound(routes, a, b);
    FindBusRoutesSound(routes, b, a);
  }

  // ---------------------------------------------------------------------------
  // Stop list and stop search
  // ---------------------------------------------------------------------------

  predicate StrictlySorted(s: seq<string>) {
    forall i, j :: 0 <= i < j < |s| ==> LexLess(s[i], s[j])
  }

  /** Adds `x` to a strictly increasing list unless it is already there. */
  function InsertUnique(x: string, s: seq<string>): (r: seq<string>)
    requires StrictlySorted(s)
    ensures StrictlySorted(r)
    ensures forall y :: y in r <==> y == x || y in s
    ensures r != [] && (r[0] == x || (s != [] && r[0] == s[0]))
    decreases |s|
  {
    if s == [] then [x]
    else if x == s[0] then s
    else if LexLess(x, s[0]) then
      assert forall j :: 0 <= j < |s| ==> LexLess(x, s[j]) by {
        forall j | 0 <= j < |s| ensures LexLess(x, s[j]) {
          if j > 0 {
            LexLessTransitive(x, s[0], s[j]);
          }
        }
      }
      var r := [x] + s;
      assert forall i, j :: 0 <= i < j < |r| ==> LexLess(r[i], r[j]) by {
        forall i, j | 0 <= i < j < |r| ensures LexLess(r[i], r[j]) {
          assert r[j] == s[j - 1];
          if i > 0 {
            assert r[i] == s[i - 1];
          }
        }
      }
      r
    else
      LexLessTotal(x, s[0]);
      var rest := InsertUnique(x, s[1..]);
      assert LexLess(s[0], rest[0]);
      var r := [s[0]] + rest;
      assert forall i, j :: 0 <= i < j < |r| ==> LexLess(r[i], r[j]) by {
        forall i, j | 0 <= i < j < |r| ensures LexLess(r[i], r[j]) {
          assert r[j] == rest[j - 1];
          if i > 0 {
            assert r[i] == rest[i - 1];
          } else if j > 1 {
            LexLessTransitive(s[0], rest[0], rest[j - 1]);
          }
        }
      }
      assert forall y :: y in s <==> y == s[0] || y in s[1..] by {
        assert s == [s[0]] + s[1..];
      }
      r
  }

  function InsertAll(xs: seq<string>, s: seq<string>): (r: seq<string>)
    requires StrictlySorted(s)
    ensures StrictlySorted(r)
    ensures forall y :: y in r <==> y in xs || y in s
    decreases |xs|
  {
    if xs == [] then s
    else
      assert forall y :: y in xs <==> y == xs[0] || y in xs[1..] by {
        assert xs == [xs[0]] + xs[1..];
      }
      InsertAll(xs[1..], InsertUnique(xs[0], s))
  }

  /** `name` is a stop of one of the routes. */
  predicate IsStopOf(routes: seq<BusRoute>, name: string) {
    exists i | 0 <= i < |routes| :: name in routes[i].stops
  }

  /**
   * `getAllBusStops`: every stop of every route exactly once, in ascending
   * character-code order.
   */
  function AllBusStops(routes: seq<BusRoute>): (r: seq<string>)
    ensures StrictlySorted(r)
    ensures Distinct(r)
    ensures forall name :: name in r <==> IsStopOf(routes, name)
    decreases |routes|
  {
    if routes == [] then []
    else
      var last := |routes| - 1;
      var r := InsertAll(routes[last].stops, AllBusStops(routes[..last]));
      assert forall i :: 0 <= i < last ==> routes[..last][i] == routes[i];
      assert Distinct(r) by {
        forall i, j | 0 <= i < j < |r| ensures r[i] != r[j] {
          LexLessIrreflexive(r[i]);
        }
      }
      r
  }

  /** The matching rule of the stop search box. */
  predicate SearchHit(query: string, stop: string) {
    Contains(Normalize(stop), Normalize(query))
  }

  /**
   * `searchBusStops`: nothing for a query shorter than two characters;
   * otherwise the first ten stops, in list order, whose normalised name
   * includes the normalised query.
   */
  function SearchBusStops(routes: seq<BusRoute>, query: string): (r: seq<string>)
    ensures |query| < 2 ==> r == []
    ensures |r| <= 10
    ensures StrictlySorted(r)
    ensures forall s :: s in r ==> IsStopOf(routes, s) && SearchHit(query, s)
    ensures |query| >= 2 && |r| < 10 ==>
              forall s :: IsStopOf(routes, s) && SearchHit(query, s) ==> s in r
    ensures forall s, t :: s in r && IsStopOf(routes, t) && SearchHit(query, t) && LexLess(t, s) ==> t in r
  {
    if |query| < 2 then []
    else
      var all := AllBusStops(routes);
      var hits := Filter(all, (s: string) => SearchHit(query, s));
      var r := Take(hits, 10);
      PrefixIsSubsequence(hits, |r|);
      SubsequenceTransitive(r, hits, all);
      SubsequenceSorted(r, all);
      SubsequenceMembers(r, hits);
      SubsequenceSorted(hits, all);
      SortedPrefixDownClosed(hits, |r|);
      r
  }

  /**
   * In a strictly increasing list, a prefix holds everything that sorts
   * before any of its elements.
   */
  lemma SortedPrefixDownClosed(s: seq<string>, k: nat)
    requires StrictlySorted(s) && k <= |s|
    ensures forall x, y :: x in s[..k] && y in s && LexLess(y, x) ==> y in s[..k]
  {
    forall x, y | x in s[..k] && y in s && LexLess(y, x) ensures y in s[..k] {
      var i :| 0 <= i < k && s[..k][i] == x;
      var m :| 0 <= m < |s| && s[m] == y;
      if m >= k {
        assert LexLess(s[i], s[m]);
        LexLessTotal(x, y);
        assert false;
      }
      assert s[..k][m] == y;
    }
  }

  /** A subsequence of a strictly increasing list is strictly increasing. */
  lemma {:induction false} SubsequenceSorted(a: seq<string>, b: seq<string>)
    requires IsSubsequence(a, b) && StrictlySorted(b)
    ensures StrictlySorted(a)
    decreases |b|
  {
    if a != [] {
      if a[0] == b[0] {
        SubsequenceSorted(a[1..], b[1..]);
        SubsequenceMembers(a[1..], b[1..]);
        forall i, j | 0 <= i < j < |a| ensures LexLess(a[i], a[j]) {
          assert a[j] == a[1..][j - 1];
          assert a[j] in b[1..];
          if i > 0 {
            assert a[i] == a[1..][i - 1];
          }
        }
      } else {
        SubsequenceSorted(a, b[1..]);
      }
    }
  }
}

=== FILE: cities.dfy ===
/**
 * The supported cities (lib/data/cities.ts): a constant table and the two
 * lookups over it. The tagline and description texts are display copy and
 * are not part of the table here.
 */
module Cities {
  import opened Wrappers
  import opened Text
  import opened Seqs

  datatype CityData = CityData(
    id: string,
    name: string,
    state: string,
    hasMetro: bool,
    metroLines: nat,
    metroStations: nat,
    population: string,
    primaryColor: string)

  /** The twelve cities, in the order the city switcher lists them. */
  function Table(): (r: seq<CityData>)
    ensures |r| == 12
  {
    [ CityData("kolkata", "Kolkata", "West Bengal", true, 2, 24, "14.8M", "teal"),
      CityData("delhi", "Delhi", "Delhi NCR", true, 12, 286, "32M", "red"),
      CityData("mumbai", "Mumbai", "Maharashtra", true, 3, 45, "21M", "blue"),
      CityData("chennai", "Chennai", "Tamil Nadu", true, 2, 40, "11M", "purple"),
      CityData("bangalore", "Bangalore", "Karnataka", true, 2, 55, "13M", "green"),
      CityData("hyderabad", "Hyderabad", "Telangana", true, 3, 57, "10M", "yellow"),
      CityData("ahmedabad", "Ahmedabad", "Gujarat", true, 2, 32, "8M", "orange"),
      CityData("pune", "Pune", "Maharashtra", true, 2, 30, "7M", "indigo"),
      CityData("jaipur", "Jaipur", "Rajasthan", true, 2, 11, "4M", "pink"),
      CityData("lucknow", "Lucknow", "Uttar Pradesh", true, 1, 21, "3.5M", "amber"),
      CityData("kochi", "Kochi", "Kerala", true, 1, 22, "2.1M", "cyan"),
      CityData("nagpur", "Nagpur", "Maharashtra", true, 2, 36, "2.9M", "orange") ]
  }

  /** `getCityById`: the first city whose id is exactly `id`. */
  function GetCityById(id: string): (r: Option<CityData>)
    ensures r.None? <==> forall i :: 0 <= i < |Table()| ==> Table()[i].id != id
    ensures r.Some? ==> r.value in Table() && r.value.id == id
  {
    Find(Table(), (c: CityData) => c.id == id)
  }

  /** `getCityByName`: the first city whose name equals `name` once both are lower-cased. */
  function GetCityByName(name: string): (r: Option<CityData>)
    ensures r.None? <==> forall i :: 0 <= i < |Table()| ==> Lower(Table()[i].name) != Lower(name)
    ensures r.Some? ==> r.value in Table() && Lower(r.value.name) == Lower(name)
  {
    Find(Table(), (c: CityData) => Lower(c.name) == Lower(name))
  }

  /** Two table rows share neither an id nor a case-folded name. */
  lemma TableKeysDistinct()
    ensures forall i, j :: 0 <= i < j < |Table()| ==> Table()[i].id != Table()[j].id
    ensures forall i, j :: 0 <= i < j < |Table()| ==> Lower(Table()[i].name) != Lower(Table()[j].name)
  {
    var t := Table();
    forall i, j | 0 <= i < j < |t| ensures t[i].id != t[j].id && Lower(t[i].name) != Lower(t[j].name) {
      var a, b := t[i], t[j];
      assert |a.id| != |b.id| || a.id[0] != b.id[0];
      assert |a.name| != |b.name| || LowerChar(a.name[0]) != LowerChar(b.name[0]);
    }
  }

  /** Every city is found again by its own id. */
  lemma GetCityByOwnId(c: CityData)
    requires c in Table()
    ensures GetCityById(c.id) == Some(c)
  {
    TableKeysDistinct();
  }

  /** A city is found by any spelling of its name that differs only in letter case. */
  lemma GetCityByNameIgnoresCase(c: CityData, name: string)
    requires c in Table()
    ensures GetCityByName(name) == Some(c) <==> Lower(name) == Lower(c.name)
  {
    TableKeysDistinct();
  }

  /** The table is not empty, and its first city is the default one, Kolkata. */
  lemma DefaultCity()
    ensures Table() != [] && Table()[0].id == "kolkata"
    ensures GetCityById("kolkata") == Some(Table()[0])
  {
    GetCityByOwnId(Table()[0]);
  }
}

=== FILE: day_card.dfy ===
/**
 * The duration label of a day card (components/plan/day-card.tsx): whole
 * hours, then the leftover minutes when there are any.
 */
module DayCard {
  import opened Wrappers
  import opened Text
  import opened Seqs

  /** `Math.floor(m / 60)`. */
  function Hours(minutes: int): (h: int)
    ensures h * 60 <= minutes < h * 60 + 60
  {
    minutes / 60
  }

  /** `m % 60` in JavaScript: the sign follows the dividend, unlike Euclidean `%`. */
  function JsRem60(minutes: int): (r: int)
    ensures -60 < r < 60
    ensures minutes >= 0 ==> 0 <= r && (minutes - r) % 60 == 0
    ensures minutes < 0 ==> r <= 0 && (minutes - r) % 60 == 0
  {
    if minutes >= 0 then minutes % 60 else -((-minutes) % 60)
  }

  /** `formatDuration`: `"<h>h "` followed by `"<m>m"` when the minutes are positive. */
  function FormatDuration(minutes: int): (r: string)
    ensures IntToString(Hours(minutes)) + "h " <= r
    ensures r[|r| - 1] == if JsRem60(minutes) > 0 then 'm' else ' '
  {
    IntToString(Hours(minutes)) + "h " + (if JsRem60(minutes) > 0 then IntToString(JsRem60(minutes)) + "m" else "")
  }

  predicate IsHoursMark(c: char) {
    c == 'h'
  }

  /**
   * Reads a label back: digits, `h`, a space, and optionally digits followed
   * by `m`. The reverse of `FormatDuration` on non-negative durations.
   */
  function ParseDuration(s: string): (r: Option<int>)
    ensures r.Some? ==> r.value >= 0
  {
    match FindIndex(s, IsHoursMark)
    case None => None
    case Some(k) => ParseParts(s[..k], s[k + 1..])
  }

  /** The hours before the `h` and the text after it. */
  function ParseParts(hours: string, rest: string): (r: Option<int>)
    ensures r.Some? ==> r.value >= 0
  {
    if hours == [] || !IsDigits(hours) || rest == [] || rest[0] != ' ' then None
    else if rest == " " then Some(60 * DigitsValue(hours))
    else
      var mins := rest[1..|rest| - 1];
      if rest[|rest| - 1] != 'm' || mins == [] || !IsDigits(mins) then None
      else Some(60 * DigitsValue(hours) + DigitsValue(mins))
  }

  /** A digit string holds no `h`, so the first `h` of a label ends its hours. */
  lemma DigitsFirstH(d: string, tail: string)
    requires IsDigits(d) && tail != [] && tail[0] == 'h'
    ensures FindIndex(d + tail, IsHoursMark) == Some(|d|)
  {
    var s := d + tail;
    assert s[|d|] == 'h';
    forall j | 0 <= j < |d| ensures s[j] != 'h' {
      assert s[j] == d[j];
    }
  }

  /** A whole-hours label reads back as its hours. */
  lemma ParseHoursLabel(hs: string)
    requires hs != [] && IsDigits(hs)
    ensures ParseDuration(hs + "h ") == Some(60 * DigitsValue(hs))
  {
    var s := hs + "h ";
    DigitsFirstH(hs, "h ");
    assert s[..|hs|] == hs && s[|hs| + 1..] == " ";
  }

  /** A label with minutes reads back as hours and minutes. */
  lemma ParseMinutesLabel(hs: string, ms: string)
    requires hs != [] && IsDigits(hs) && ms != [] && IsDigits(ms)
    ensures ParseDuration(hs + "h " + ms + "m") == Some(60 * DigitsValue(hs) + DigitsValue(ms))
  {
    var tail := "h " + ms + "m";
    var s := hs + tail;
    assert hs + "h " + ms + "m" == s by {
      assert tail == "h " + ms + "m";
    }
    assert FindIndex(s, IsHoursMark) == Some(|hs|) by {
      DigitsFirstH(hs, tail);
    }
    assert s[..|hs|] == hs && s[|hs| + 1..] == " " + ms + "m" by {
      SplitAt(hs, tail);
      assert tail[1..] == " " + ms + "m";
    }
    MinutesPart(hs, ms);
  }

  lemma SplitAt(a: string, b: string)
    requires b != []
    ensures (a + b)[..|a|] == a && (a + b)[|a| + 1..] == b[1..]
  {
  }

  lemma MinutesPart(hs: string, ms: string)
    requires hs != [] && IsDigits(hs) && ms != [] && IsDigits(ms)
    ensures ParseParts(hs, " " + ms + "m") == Some(60 * DigitsValue(hs) + DigitsValue(ms))
  {
    var rest := " " + ms + "m";
    assert rest[1..|rest| - 1] == ms;
  }

  /** Every non-negative duration's label reads back as that duration. */
  lemma FormatDurationRoundTrip(minutes: nat)
    ensures ParseDuration(FormatDuration(minutes)) == Some(minutes)
  {
    var h, m := Hours(minutes), JsRem60(minutes);
    assert h * 60 + m == minutes;
    NatToStringRoundTrip(h);
    if m > 0 {
      NatToStringRoundTrip(m);
      ParseMinutesLabel(NatToString(h), NatToString(m));
      assert FormatDuration(minutes) == NatToString(h) + "h " + NatToString(m) + "m";
    } else {
      ParseHoursLabel(NatToString(h));
      assert FormatDuration(minutes) == NatToString(h) + "h ";
    }
  }

  /** The minutes part is shown exactly when the duration is not a whole number of hours. */
  lemma MinutesShownIff(minutes: nat)
    ensures FormatDuration(minutes) == NatToString(minutes / 60) + "h " <==> minutes % 60 == 0
  {
    if minutes % 60 != 0 {
      assert |FormatDuration(minutes)| > |NatToString(minutes / 60) + "h "|;
    }
  }
}

=== FILE: explore_page.dfy ===
/**
 * The place list of the explore page (app/explore/page.tsx): which places
 * the selected city shows, and the category and search filter over them.
 * Place generation for other cities is a network call and is represented by
 * the map of places generated so far.
 */
module ExplorePage {
  import opened Text
  import opened Seqs
  import opened Types

  /** The category tabs: every category, or one of them. */
  datatype CategoryChoice = All | Only(category: Category)

  /**
   * `currentPlaces`: the curated list for Kolkata; for any other city the
   * places generated for it, or none yet.
   */
  function CurrentPlaces(cityId: string, kolkata: seq<Place>, generated: map<string, seq<Place>>): (r: seq<Place>)
    ensures cityId == "kolkata" ==> r == kolkata
    ensures cityId != "kolkata" ==> r == if cityId in generated then generated[cityId] else []
  {
    if cityId == "kolkata" then kolkata
    else if cityId in generated then generated[cityId]
    else []
  }

  /**
   * `handleGeneratePlaces`: the places generated for the selected city are
   * stored under its id, replacing any earlier ones.
   */
  function GeneratePlaces(generated: map<string, seq<Place>>, cityId: string, places: seq<Place>): (r: map<string, seq<Place>>)
    ensures cityId in r && r[cityId] == places
    ensures r.Keys == generated.Keys + {cityId}
    ensures forall c :: c in generated && c != cityId ==> c in r && r[c] == generated[c]
  {
    generated[cityId := places]
  }

  /**
   * Generating places shows them for the selected city unless it is Kolkata,
   * whose curated list never changes, and every other city keeps showing
   * what it showed before.
   */
  lemma GenerateThenShow(cityId: string, other: string, kolkata: seq<Place>,
                         generated: map<string, seq<Place>>, places: seq<Place>)
    ensures cityId != "kolkata" ==> CurrentPlaces(cityId, kolkata, GeneratePlaces(generated, cityId, places)) == places
    ensures CurrentPlaces("kolkata", kolkata, GeneratePlaces(generated, cityId, places)) == kolkata
    ensures other != cityId ==>
              CurrentPlaces(other, kolkata, GeneratePlaces(generated, cityId, places))
              == CurrentPlaces(other, kolkata, generated)
  {
  }

  /** `matchesCategory`. */
  predicate MatchesCategory(choice: CategoryChoice, p: Place) {
    choice.All? || p.category == choice.category
  }

  /**
   * A listed place shows under the "all" tab and under exactly one category
   * tab, its own.
   */
  lemma CategoryTabsPartition(places: seq<Place>, query: string, p: Place)
    requires p in FilteredPlaces(places, All, query)
    ensures p in FilteredPlaces(places, Only(p.category), query)
    ensures forall c :: c != p.category ==> p !in FilteredPlaces(places, Only(c), query)
  {
  }

  /**
   * `matchesSearch`: an empty query, or the query inside the name or the
   * description, ignoring case. In particular a query written exactly as it
   * appears in the name or the description matches.
   */
  predicate MatchesSearch(query: string, p: Place)
    ensures Contains(p.name, query) || Contains(p.description, query) ==> MatchesSearch(query, p)
  {
    ExactHitFound(query, p);
    query == "" || Contains(Lower(p.name), Lower(query)) || Contains(Lower(p.description), Lower(query))
  }

  lemma ExactHitFound(query: string, p: Place)
    ensures Contains(p.name, query) ==> Contains(Lower(p.name), Lower(query))
    ensures Contains(p.description, query) ==> Contains(Lower(p.description), Lower(query))
  {
    if Contains(p.name, query) {
      ContainsLower(p.name, query);
    }
    if Contains(p.description, query) {
      ContainsLower(p.description, query);
    }
  }

  /** The search ignores the case of the query. */
  lemma MatchesSearchIgnoresCase(query: string, p: Place)
    ensures MatchesSearch(query, p) <==> MatchesSearch(Lower(query), p)
  {
    LowerIdempotent(query);
  }

  /** `filteredPlaces`: the places passing both tests, in their original order. */
  function FilteredPlaces(places: seq<Place>, choice: CategoryChoice, query: string): (r: seq<Place>)
    ensures IsSubsequence(r, places)
    ensures forall p :: p in r <==> p in places && MatchesCategory(choice, p) && MatchesSearch(query, p)
    ensures forall p :: multiset(r)[p] == if MatchesCategory(choice, p) && MatchesSearch(query, p) then multiset(places)[p] else 0
  {
    Filter(places, (p: Place) => MatchesCategory(choice, p) && MatchesSearch(query, p))
  }

  /** With every category and no query, nothing is filtered out. */
  lemma UnfilteredShowsAll(places: seq<Place>)
    ensures FilteredPlaces(places, All, "") == places
  {
    FilterAll(places, (p: Place) => MatchesCategory(All, p) && MatchesSearch("", p));
  }

  /** A query that includes another one matches only places the shorter one matches. */
  lemma SearchNarrows(longer: string, shorter: string, p: Place)
    requires Contains(longer, shorter)
    ensures MatchesSearch(longer, p) ==> MatchesSearch(shorter, p)
  {
    if longer == "" {
      ContainsOccurs(longer, shorter);
    } else if MatchesSearch(longer, p) {
      ContainsLower(longer, shorter);
      if Contains(Lower(p.name), Lower(longer)) {
        ContainsTransitive(Lower(p.name), Lower(longer), Lower(shorter));
      } else {
        ContainsTransitive(Lower(p.description), Lower(longer), Lower(shorter));
      }
    }
  }

  /**
   * Typing more narrows the list: extending the query, or picking one
   * category instead of all, keeps a subsequence of the earlier list.
   */
  lemma FilterNarrows(places: seq<Place>, choice: CategoryChoice, longer: string, shorter: string)
    requires Contains(longer, shorter)
    ensures IsSubsequence(FilteredPlaces(places, choice, longer), FilteredPlaces(places, All, shorter))
  {
    forall p ensures MatchesSearch(longer, p) ==> MatchesSearch(shorter, p) {
      SearchNarrows(longer, shorter, p);
    }
    FilterWeaken(places, (p: Place) => MatchesCategory(choice, p) && MatchesSearch(longer, p),
                 (p: Place) => MatchesCategory(All, p) && MatchesSearch(shorter, p));
  }
}

=== FILE: itinerary.dfy ===
/**
 * The day-plan generator (lib/itinerary-generator.ts): places grouped by
 * category, a fixed slot layout per trip length, and a nearest-neighbour
 * ordering of each day's places. The place list is a parameter, and so is
 * the distance between two places (the haversine formula is not modelled).
 */
module Itinerary {
  import opened Wrappers
  import opened Seqs
  import opened Types
  import Numeric

  /** The distance between two places, in km. */
  type Distance = (Place, Place) -> real

  // ---------------------------------------------------------------------------
  // Places by category
  // ---------------------------------------------------------------------------

  /** `placesByCategory[c]`: the places of category `c`, in list order. */
  function ByCategory(places: seq<Place>, c: Category): (r: seq<Place>)
    ensures |r| <= |places|
    decreases |places|
  {
    if places == [] then []
    else (if places[0].category == c then [places[0]] else []) + ByCategory(places[1..], c)
  }

  /** The category list is the `filter` of the place list by category. */
  lemma {:induction false} ByCategoryFilter(places: seq<Place>, c: Category)
    ensures ByCategory(places, c) == Filter(places, (p: Place) => p.category == c)
    decreases |places|
  {
    if places != [] {
      ByCategoryFilter(places[1..], c);
    }
  }

  /** A place is in the list of category `c` exactly when it is a place of category `c`. */
  lemma ByCategoryMembers(places: seq<Place>, c: Category)
    ensures IsSubsequence(ByCategory(places, c), places)
    ensures forall p :: p in ByCategory(places, c) <==> p in places && p.category == c
  {
    ByCategoryFilter(places, c);
  }

  /** The five category lists split the places between them: together they hold each place once. */
  lemma ByCategoryPartition(places: seq<Place>)
    ensures multiset(ByCategory(places, Historical)) + multiset(ByCategory(places, Cultural))
          + multiset(ByCategory(places, Religious)) + multiset(ByCategory(places, FoodMarkets))
          + multiset(ByCategory(places, Nature)) == multiset(places)
    ensures |ByCategory(places, Historical)| + |ByCategory(places, Cultural)|
          + |ByCategory(places, Religious)| + |ByCategory(places, FoodMarkets)|
          + |ByCategory(places, Nature)| == |places|
  {
    var h, c, r, f, n := ByCategory(places, Historical), ByCategory(places, Cultural),
                         ByCategory(places, Religious), ByCategory(places, FoodMarkets),
                         ByCategory(places, Nature);
    var total := multiset(h) + multiset(c) + multiset(r) + multiset(f) + multiset(n);
    forall x ensures total[x] == multiset(places)[x] {
      ByCategoryCount(places, Historical, x);
      ByCategoryCount(places, Cultural, x);
      ByCategoryCount(places, Religious, x);
      ByCategoryCount(places, FoodMarkets, x);
      ByCategoryCount(places, Nature, x);
    }
    assert total == multiset(places);
    assert |total| == |multiset(places)|;
  }

  /** A category list holds every place of its category as often as the place list does. */
  lemma ByCategoryCount(places: seq<Place>, c: Category, x: Place)
    ensures multiset(ByCategory(places, c))[x] == if x.category == c then multiset(places)[x] else 0
  {
    ByCategoryFilter(places, c);
  }

  /** Without repeated places, a category list has none either. */
  lemma ByCategoryDistinct(places: seq<Place>, c: Category)
    requires Distinct(places)
    ensures Distinct(ByCategory(places, c))
  {
    ByCategoryMembers(places, c);
    SubsequenceMultiset(ByCategory(places, c), places);
    DistinctPermutation(ByCategory(places, c), places);
  }

  // ---------------------------------------------------------------------------
  // Nearest-neighbour ordering
  // ---------------------------------------------------------------------------

  /**
   * The index the `forEach` scan settles on: it replaces its candidate only
   * on a strictly smaller distance, so it ends on the earliest place nearest
   * to `last`.
   */
  function Nearest(last: Place, remaining: seq<Place>, dist: Distance): (k: nat)
    requires remaining != []
    ensures k < |remaining|
    ensures forall j :: 0 <= j < |remaining| ==> dist(last, remaining[k]) <= dist(last, remaining[j])
    ensures forall j :: 0 <= j < k ==> dist(last, remaining[k]) < dist(last, remaining[j])
    decreases |remaining|
  {
    if |remaining| == 1 then 0
    else
      var k := Nearest(last, remaining[..|remaining| - 1], dist);
      if dist(last, remaining[|remaining| - 1]) < dist(last, remaining[k]) then |remaining| - 1 else k
  }

  /**
   * The `while` loop from the place `last`: visit the place nearest to it,
   * take that place out of `remaining` (`splice`), and go on from there.
   * The result is the order in which `remaining` is visited.
   */
  function Tour(last: Place, remaining: seq<Place>, dist: Distance): (r: seq<Place>)
    ensures |r| == |remaining| && multiset(r) == multiset(remaining)
    decreases |remaining|
  {
    if remaining == [] then []
    else
      var k := Nearest(last, remaining, dist);
      [remaining[k]] + Tour(remaining[k], Remove(remaining, k), dist)
  }

  /** `optimizeRoute`: start at the first place, then always go to the nearest unvisited one. */
  function OptimizeRoute(places: seq<Place>, dist: Distance): (r: seq<Place>)
    ensures |r| == |places| && multiset(r) == multiset(places)
    ensures |places| <= 1 ==> r == places
    ensures places != [] ==> r[0] == places[0]
  {
    if |places| <= 1 then places
    else
      assert places == [places[0]] + places[1..];
      [places[0]] + Tour(places[0], places[1..], dist)
  }

  /** No place is nearer to `from` than the first place of `route`. */
  predicate StartsNearest(from: Place, route: seq<Place>, dist: Distance) {
    forall j :: 0 <= j < |route| ==> dist(from, route[0]) <= dist(from, route[j])
  }

  /** A tour's first place is nearest to the starting place among all it visits. */
  lemma TourStartsNearest(last: Place, remaining: seq<Place>, dist: Distance)
    ensures StartsNearest(last, Tour(last, remaining, dist), dist)
  {
    var t := Tour(last, remaining, dist);
    if remaining != [] {
      var k := Nearest(last, remaining, dist);
      assert t[0] == remaining[k];
      forall j | 0 <= j < |t| ensures dist(last, t[0]) <= dist(last, t[j]) {
        assert t[j] in multiset(remaining);
      }
    }
  }

  /**
   * The greedy choice: every place after the first is no farther from its
   * predecessor than any place that comes later in the route.
   */
  predicate NearestFirst(route: seq<Place>, dist: Distance) {
    forall i, j :: 1 <= i < j < |route| ==> dist(route[i - 1], route[i]) <= dist(route[i - 1], route[j])
  }

  /** A greedy route stays greedy behind a place it starts nearest to. */
  lemma NearestFirstCons(from: Place, route: seq<Place>, dist: Distance)
    requires NearestFirst(route, dist) && StartsNearest(from, route, dist)
    ensures NearestFirst([from] + route, dist)
  {
    var path := [from] + route;
    forall i, j | 1 <= i < j < |path| ensures dist(path[i - 1], path[i]) <= dist(path[i - 1], path[j]) {
      var i2, j2 := i - 1, j - 1;
      assert path[i] == route[i2] && path[j] == route[j2];
      if i2 > 0 {
        assert path[i - 1] == route[i2 - 1];
      }
    }
  }

  /** A tour from `last`, with `last` put in front, has the greedy shape. */
  lemma {:induction false} TourGreedy(last: Place, remaining: seq<Place>, dist: Distance)
    ensures NearestFirst([last] + Tour(last, remaining, dist), dist)
    decreases |remaining|
  {
    if remaining != [] {
      var k := Nearest(last, remaining, dist);
      TourGreedy(remaining[k], Remove(remaining, k), dist);
      assert Tour(last, remaining, dist) == [remaining[k]] + Tour(remaining[k], Remove(remaining, k), dist);
      TourStartsNearest(last, remaining, dist);
      NearestFirstCons(last, Tour(last, remaining, dist), dist);
    }
  }

  /** `optimizeRoute` produces a route of the greedy shape. */
  lemma OptimizeRouteGreedy(places: seq<Place>, dist: Distance)
    ensures NearestFirst(OptimizeRoute(places, dist), dist)
  {
    if |places| > 1 {
      TourGreedy(places[0], places[1..], dist);
    }
  }

  /**
   * The tie-break of the strict `<` in the search for the nearest place: of
   * two places equally near to the previous stop, the route visits first the
   * one that comes first in `order`.
   */
  ghost predicate TiesEarliest(route: seq<Place>, order: seq<Place>, dist: Distance) {
    forall i, j :: 1 <= i < j < |route| && dist(route[i - 1], route[j]) == dist(route[i - 1], route[i]) ==>
      Precedes(route[i], route[j], order)
  }

  /** A tour from `last`, with `last` put in front, breaks every tie towards the earlier place. */
  lemma {:induction false} TourTiesEarliest(last: Place, remaining: seq<Place>, dist: Distance)
    ensures TiesEarliest([last] + Tour(last, remaining, dist), remaining, dist)
    decreases |remaining|
  {
    if remaining != [] {
      var k := Nearest(last, remaining, dist);
      var t := Tour(remaining[k], Remove(remaining, k), dist);
      TourTiesEarliest(remaining[k], Remove(remaining, k), dist);
      TiesStep(last, remaining, k, t, dist);
    }
  }

  /** The step of `TourTiesEarliest`: the first choice from `last`, then a tour that breaks ties. */
  lemma TiesStep(last: Place, remaining: seq<Place>, k: nat, t: seq<Place>, dist: Distance)
    requires remaining != [] && k == Nearest(last, remaining, dist)
    requires multiset(t) == multiset(Remove(remaining, k))
    requires TiesEarliest([remaining[k]] + t, Remove(remaining, k), dist)
    ensures TiesEarliest([last] + ([remaining[k]] + t), remaining, dist)
  {
    TiesFirst(last, remaining, k, t, dist);
    TiesLater(last, remaining, k, t, dist);
  }

  /** The tie at the first choice goes to the earlier place. */
  lemma TiesFirst(last: Place, remaining: seq<Place>, k: nat, t: seq<Place>, dist: Distance)
    requires remaining != [] && k == Nearest(last, remaining, dist)
    requires multiset(t) == multiset(Remove(remaining, k))
    ensures var route := [last] + ([remaining[k]] + t);
            forall j :: 2 <= j < |route| && dist(last, route[j]) == dist(last, remaining[k]) ==>
              Precedes(remaining[k], route[j], remaining)
  {
    var route := [last] + ([remaining[k]] + t);
    forall j | 2 <= j < |route| && dist(last, route[j]) == dist(last, remaining[k])
      ensures Precedes(remaining[k], route[j], remaining)
    {
      TwoHeads(last, remaining[k], t, j);
      assert t[j - 2] in multiset(t);
      NearestTieLater(last, remaining, k, t[j - 2], dist);
    }
  }

  /** Ties further on were broken inside the rest of the list, so also inside `remaining`. */
  lemma TiesLater(last: Place, remaining: seq<Place>, k: nat, t: seq<Place>, dist: Distance)
    requires k < |remaining|
    requires TiesEarliest([remaining[k]] + t, Remove(remaining, k), dist)
    ensures var route := [last] + ([remaining[k]] + t);
            forall i, j :: 2 <= i < j < |route| && dist(route[i - 1], route[j]) == dist(route[i - 1], route[i]) ==>
              Precedes(route[i], route[j], remaining)
  {
    var route' := [remaining[k]] + t;
    var route := [last] + route';
    forall i, j | 2 <= i < j < |route| && dist(route[i - 1], route[j]) == dist(route[i - 1], route[i])
      ensures Precedes(route[i], route[j], remaining)
    {
      assert route[i] == route'[i - 1] && route[j] == route'[j - 1] && route[i - 1] == route'[i - 2];
      PrecedesRemove(route[i], route[j], remaining, k);
    }
  }

  lemma TwoHeads(x: Place, y: Place, t: seq<Place>, j: nat)
    requires 2 <= j < |t| + 2
    ensures ([x] + ([y] + t))[j] == t[j - 2]
  {
  }

  /** A place as near as the chosen one, still unvisited after it, came later in `remaining`. */
  lemma NearestTieLater(last: Place, remaining: seq<Place>, k: nat, y: Place, dist: Distance)
    requires remaining != [] && k == Nearest(last, remaining, dist)
    requires y in multiset(Remove(remaining, k))
    requires dist(last, y) == dist(last, remaining[k])
    ensures Precedes(remaining[k], y, remaining)
  {
    var rest := Remove(remaining, k);
    var m :| 0 <= m < |rest| && rest[m] == y;
    assert m >= k && remaining[m + 1] == y by {
      RemoveAt(remaining, k);
    }
  }

  /** `optimizeRoute` breaks every tie towards the place that came first in the input. */
  lemma OptimizeRouteTiesEarliest(places: seq<Place>, dist: Distance)
    ensures TiesEarliest(OptimizeRoute(places, dist), places, dist)
  {
    if |places| > 1 {
      var route := OptimizeRoute(places, dist);
      TourTiesEarliest(places[0], places[1..], dist);
      forall i, j | 1 <= i < j < |route| && dist(route[i - 1], route[j]) == dist(route[i - 1], route[i])
        ensures Precedes(route[i], route[j], places)
      {
        PrecedesTail(route[i], route[j], places);
      }
    }
  }

  // ---------------------------------------------------------------------------
  // Total distance
  // ---------------------------------------------------------------------------

  /** The length of the walk through `places` in order: the sum over consecutive pairs. */
  function PathLength(places: seq<Place>, dist: Distance): real
    decreases |places|
  {
    if |places| < 2 then 0.0
    else PathLength(places[..|places| - 1], dist) + dist(places[|places| - 2], places[|places| - 1])
  }

  /** The reported total: the path length rounded to one decimal place. */
  function TotalDistance(places: seq<Place>, dist: Distance): (r: real)
    ensures PathLength(places, dist) - 0.05 < r <= PathLength(places, dist) + 0.05
    ensures (r * 10.0).Floor as real == r * 10.0
  {
    Numeric.RoundTenth(PathLength(places, dist))
  }

  /** `calculateTotalDistance`: the `for` loop over consecutive pairs, then the rounding. */
  method CalculateTotalDistance(places: seq<Place>, dist: Distance) returns (total: real)
    ensures total == TotalDistance(places, dist)
    ensures |places| < 2 ==> total == 0.0
  {
    var sum := 0.0;
    var i := 0;
    while i + 1 < |places|
      invariant places == [] ==> i == 0 && sum == 0.0
      invariant places != [] ==> i < |places| && sum == PathLength(places[..i + 1], dist)
    {
      assert places[..i + 2][..i + 1] == places[..i + 1];
      sum := sum + dist(places[i], places[i + 1]);
      i := i + 1;
    }
    if places != [] {
      assert places[..i + 1] == places;
    }
    total := Numeric.RoundTenth(sum);
  }

  /** Along a route the length only grows, and never falls below zero when distances do not. */
  lemma {:induction false} PathLengthNonNegative(places: seq<Place>, dist: Distance)
    requires forall p, q :: dist(p, q) >= 0.0
    ensures PathLength(places, dist) >= 0.0
    decreases |places|
  {
    if |places| >= 2 {
      PathLengthNonNegative(places[..|places| - 1], dist);
    }
  }

  // ---------------------------------------------------------------------------
  // Day plans
  // ---------------------------------------------------------------------------

  /** One place slot of a day: the `index`-th place of a category. */
  datatype Slot = Slot(category: Category, index: nat)

  /** The fixed slot layout for a trip of 1, 2 or 3 days, one list per day. */
  function Layout(days: int): (r: seq<seq<Slot>>)
    requires 1 <= days <= 3
    ensures |r| == days
    ensures forall d :: 0 <= d < |r| ==> |r[d]| == 4
  {
    if days == 1 then
      [[Slot(Historical, 0), Slot(Historical, 1), Slot(FoodMarkets, 0), Slot(Cultural, 0)]]
    else if days == 2 then
      [[Slot(Historical, 0), Slot(Cultural, 0), Slot(FoodMarkets, 0), Slot(Cultural, 1)],
       [Slot(Religious, 0), Slot(Religious, 1), Slot(Nature, 0), Slot(FoodMarkets, 1)]]
    else
      [[Slot(Historical, 0), Slot(Historical, 1), Slot(Historical, 2), Slot(FoodMarkets, 0)],
       [Slot(Cultural, 0), Slot(Cultural, 1), Slot(Religious, 0), Slot(FoodMarkets, 1)],
       [Slot(Nature, 0), Slot(Nature, 1), Slot(Religious, 1), Slot(Cultural, 2)]]
  }

  /** `placesByCategory[c][i]`, which is `undefined` past the end of the list. */
  function Pick(places: seq<Place>, s: Slot): (r: Option<Place>)
    ensures r.Some? <==> s.index < |ByCategory(places, s.category)|
    ensures r.Some? ==> r.value in places && r.value.category == s.category
  {
    var l := ByCategory(places, s.category);
    if s.index < |l| then
      ByCategoryMembers(places, s.category);
      assert l[s.index] in l;
      Some(l[s.index])
    else None
  }

  /** A slot's pick as a list of at most one place. */
  function Picked(places: seq<Place>, s: Slot): (r: seq<Place>)
    ensures |r| <= 1
  {
    match Pick(places, s)
    case Some(p) => [p]
    case None => []
  }

  /** The slots' picks with the missing ones dropped (`filter(Boolean)`). */
  function Picks(places: seq<Place>, slots: seq<Slot>): (r: seq<Place>)
    ensures |r| <= |slots|
    ensures forall p :: p in r ==> p in places
    decreases |slots|
  {
    if slots == [] then []
    else
      Picked(places, slots[0]) + Picks(places, slots[1..])
  }

  /**
   * One day: the picked places in nearest-neighbour order, starting from the
   * first pick and breaking ties towards the earlier pick, and 90 minutes
   * per place.
   */
  function PlanDay(places: seq<Place>, slots: seq<Slot>, day: int, dist: Distance): (r: ItineraryDay)
    ensures r.day == day
    ensures multiset(r.places) == multiset(Picks(places, slots))
    ensures Picks(places, slots) != [] ==> r.places[0] == Picks(places, slots)[0]
    ensures NearestFirst(r.places, dist)
    ensures TiesEarliest(r.places, Picks(places, slots), dist)
    ensures r.totalDuration == 90 * |r.places|
    ensures r.totalDistance == TotalDistance(r.places, dist)
  {
    OptimizeRouteGreedy(Picks(places, slots), dist);
    OptimizeRouteTiesEarliest(Picks(places, slots), dist);
    var ordered := OptimizeRoute(Picks(places, slots), dist);
    ItineraryDay(day, ordered, TotalDistance(ordered, dist), |ordered| * 90)
  }

  /** The days of a layout, planned in order and numbered from `first`. */
  function PlanDays(places: seq<Place>, layout: seq<seq<Slot>>, first: int, dist: Distance): (r: seq<ItineraryDay>)
    ensures |r| == |layout|
    decreases |layout|
  {
    if layout == [] then []
    else [PlanDay(places, layout[0], first, dist)] + PlanDays(places, layout[1..], first + 1, dist)
  }

  /** Day `d` of the plan is layout entry `d` planned as day number `first + d`. */
  lemma {:induction false} PlanDaysAt(places: seq<Place>, layout: seq<seq<Slot>>, first: int, dist: Distance)
    ensures forall d :: 0 <= d < |layout| ==>
              PlanDays(places, layout, first, dist)[d] == PlanDay(places, layout[d], first + d, dist)
    decreases |layout|
  {
    if layout != [] {
      PlanDaysAt(places, layout[1..], first + 1, dist);
      var r := PlanDays(places, layout, first, dist);
      forall d | 1 <= d < |r| ensures r[d] == PlanDay(places, layout[d], first + d, dist) {
        assert r[d] == PlanDays(places, layout[1..], first + 1, dist)[d - 1];
        assert layout[d] == layout[1..][d - 1];
      }
    }
  }

  /** `generateItinerary`: one planned day per entry of the trip's layout. */
  function GenerateItinerary(places: seq<Place>, days: int, dist: Distance): (r: seq<ItineraryDay>)
    requires 1 <= days <= 3
    ensures |r| == days
  {
    PlanDays(places, Layout(days), 1, dist)
  }

  /**
   * The days are numbered 1 to `days` in order; each holds at most its four
   * slots' places, all taken from the place list, with 90 minutes per place.
   */
  lemma GenerateItineraryDays(places: seq<Place>, days: int, dist: Distance)
    requires 1 <= days <= 3
    ensures var r := GenerateItinerary(places, days, dist);
            && (forall d :: 0 <= d < |r| ==> r[d].day == d + 1)
            && (forall d :: 0 <= d < |r| ==> |r[d].places| <= 4 && r[d].totalDuration == 90 * |r[d].places|)
            && (forall d, p :: 0 <= d < |r| && p in r[d].places ==> p in places)
  {
    var r := GenerateItinerary(places, days, dist);
    var layout := Layout(days);
    forall d | 0 <= d < |r|
      ensures r[d].day == d + 1 && |r[d].places| <= 4 && r[d].totalDuration == 90 * |r[d].places|
      ensures forall p :: p in r[d].places ==> p in places
    {
      PlanDaysAt(places, layout, 1, dist);
      assert r[d] == PlanDay(places, layout[d], 1 + d, dist);
      forall p | p in r[d].places ensures p in places {
        assert p in multiset(Picks(places, layout[d]));
      }
    }
  }

  /** How many places of each category the longest layout asks for. */
  function Needed(c: Category): nat {
    match c
    case Historical => 3
    case Cultural => 3
    case Religious => 2
    case FoodMarkets => 2
    case Nature => 2
  }

  /** Every slot of every layout is within the needed count of its category. */
  lemma LayoutNeeds(days: int)
    requires 1 <= days <= 3
    ensures forall d, i :: 0 <= d < days && 0 <= i < |Layout(days)[d]| ==>
              Layout(days)[d][i].index < Needed(Layout(days)[d][i].category)
  {
  }

  /** With enough places in every category, each day is filled with all four of its slots. */
  lemma FullDays(places: seq<Place>, days: int, dist: Distance)
    requires 1 <= days <= 3
    requires forall c :: |ByCategory(places, c)| >= Needed(c)
    ensures forall d :: 0 <= d < days ==> |GenerateItinerary(places, days, dist)[d].places| == 4
  {
    var layout := Layout(days);
    var r := GenerateItinerary(places, days, dist);
    PlanDaysAt(places, layout, 1, dist);
    LayoutNeeds(days);
    forall d | 0 <= d < days ensures |r[d].places| == 4 {
      forall i | 0 <= i < |layout[d]| ensures Pick(places, layout[d][i]).Some? {
        assert |ByCategory(places, layout[d][i].category)| >= Needed(layout[d][i].category);
      }
      PicksAll(places, layout[d]);
      assert r[d] == PlanDay(places, layout[d], 1 + d, dist);
      assert |multiset(r[d].places)| == |multiset(Picks(places, layout[d]))|;
    }
  }

  /** When every slot can be filled, nothing is dropped. */
  lemma {:induction false} PicksAll(places: seq<Place>, slots: seq<Slot>)
    requires forall i :: 0 <= i < |slots| ==> Pick(places, slots[i]).Some?
    ensures |Picks(places, slots)| == |slots|
    decreases |slots|
  {
    if slots != [] {
      assert Pick(places, slots[0]).Some?;
      PicksAll(places, slots[1..]);
    }
  }

  // ---------------------------------------------------------------------------
  // No place twice
  // ---------------------------------------------------------------------------

  /** Every place visited by an itinerary, day by day. */
  function Visits(plan: seq<ItineraryDay>): (r: seq<Place>)
    ensures |r| == if plan == [] then 0 else |plan[0].places| + |Visits(plan[1..])|
    decreases |plan|
  {
    if plan == [] then [] else plan[0].places + Visits(plan[1..])
  }

  /** All slots of a layout, day by day. */
  function AllSlots(layout: seq<seq<Slot>>): seq<Slot>
    decreases |layout|
  {
    if layout == [] then [] else layout[0] + AllSlots(layout[1..])
  }

  /** A place is picked by one slot at most, when the place list has no repeats. */
  lemma PickInjective(places: seq<Place>, s: Slot, t: Slot)
    requires Distinct(places)
    ensures Pick(places, s).Some? && Pick(places, s) == Pick(places, t) ==> s == t
  {
    ByCategoryDistinct(places, s.category);
  }

  /** Where each picked place comes from. */
  lemma {:induction false} PicksFrom(places: seq<Place>, slots: seq<Slot>, p: Place)
    requires p in Picks(places, slots)
    ensures exists i :: 0 <= i < |slots| && Pick(places, slots[i]) == Some(p)
    decreases |slots|
  {
    assert Picks(places, slots) == Picked(places, slots[0]) + Picks(places, slots[1..]);
    if p !in Picked(places, slots[0]) {
      PicksFrom(places, slots[1..], p);
      var i :| 0 <= i < |slots[1..]| && Pick(places, slots[1..][i]) == Some(p);
      assert slots[i + 1] == slots[1..][i];
    }
  }

  /** Distinct slots over distinct places pick distinct places. */
  lemma {:induction false} PicksDistinct(places: seq<Place>, slots: seq<Slot>)
    requires Distinct(places) && Distinct(slots)
    ensures Distinct(Picks(places, slots))
    decreases |slots|
  {
    if slots != [] {
      assert Distinct(slots[1..]) by {
        forall i, j | 0 <= i < j < |slots[1..]| ensures slots[1..][i] != slots[1..][j] {
          assert slots[1..][i] == slots[i + 1] && slots[1..][j] == slots[j + 1];
        }
      }
      PicksDistinct(places, slots[1..]);
      var head := Picked(places, slots[0]);
      var rest := Picks(places, slots[1..]);
      assert Picks(places, slots) == head + rest;
      forall p, q | p in head && q in rest ensures p != q {
        PicksFrom(places, slots[1..], q);
        var i :| 0 <= i < |slots[1..]| && Pick(places, slots[1..][i]) == Some(q);
        assert slots[1..][i] == slots[i + 1] && slots[i + 1] != slots[0];
        PickInjective(places, slots[0], slots[i + 1]);
      }
      assert Distinct(head + rest) by {
        forall i, j | 0 <= i < j < |head + rest| ensures (head + rest)[i] != (head + rest)[j] {
          assert |head| <= 1;
          if i < |head| {
            assert (head + rest)[i] == head[i] && (head + rest)[j] == rest[j - |head|];
            assert head[i] in head && rest[j - |head|] in rest;
          } else {
            assert (head + rest)[i] == rest[i - |head|] && (head + rest)[j] == rest[j - |head|];
          }
        }
      }
    }
  }

  /** Picking slot lists one after another is picking their concatenation. */
  lemma {:induction false} PicksAppend(places: seq<Place>, a: seq<Slot>, b: seq<Slot>)
    ensures Picks(places, a + b) == Picks(places, a) + Picks(places, b)
    decreases |a|
  {
    if a == [] {
      assert a + b == b;
    } else {
      assert (a + b)[0] == a[0] && (a + b)[1..] == a[1..] + b;
      assert Picks(places, a + b) == Picked(places, a[0]) + Picks(places, a[1..] + b);
      assert Picks(places, a) == Picked(places, a[0]) + Picks(places, a[1..]);
      PicksAppend(places, a[1..], b);
      assert Picked(places, a[0]) + (Picks(places, a[1..]) + Picks(places, b))
          == (Picked(places, a[0]) + Picks(places, a[1..])) + Picks(places, b);
    }
  }

  /** The visited places are, as a multiset, the picks of all the slots. */
  lemma {:induction false} VisitsPicks(places: seq<Place>, layout: seq<seq<Slot>>, first: int, dist: Distance)
    ensures multiset(Visits(PlanDays(places, layout, first, dist))) == multiset(Picks(places, AllSlots(layout)))
    decreases |layout|
  {
    if layout != [] {
      var plan := PlanDays(places, layout, first, dist);
      VisitsPicks(places, layout[1..], first + 1, dist);
      PicksAppend(places, layout[0], AllSlots(layout[1..]));
      assert plan[1..] == PlanDays(places, layout[1..], first + 1, dist);
      assert Visits(plan) == plan[0].places + Visits(plan[1..]);
    }
  }

  /** The layouts never use a slot twice. */
  lemma LayoutDistinct(days: int)
    requires 1 <= days <= 3
    ensures Distinct(AllSlots(Layout(days)))
  {
    var l := Layout(days);
    assert AllSlots(l) == if days == 1 then l[0] else if days == 2 then l[0] + l[1] else l[0] + l[1] + l[2] by {
      assert AllSlots(l[|l|..]) == [];
      if days >= 2 {
        assert AllSlots(l[1..]) == l[1] + AllSlots(l[2..]);
      }
      if days == 3 {
        assert AllSlots(l[2..]) == l[2] + AllSlots(l[3..]);
      }
    }
  }

  /** Over a trip of several days no place is visited twice, provided the place list has no repeats. */
  lemma NoPlaceTwice(places: seq<Place>, days: int, dist: Distance)
    requires 1 <= days <= 3 && Distinct(places)
    ensures Distinct(Visits(GenerateItinerary(places, days, dist)))
  {
    var plan := GenerateItinerary(places, days, dist);
    VisitsPicks(places, Layout(days), 1, dist);
    LayoutDistinct(days);
    PicksDistinct(places, AllSlots(Layout(days)));
    DistinctPermutation(Visits(plan), Picks(places, AllSlots(Layout(days))));
  }
}

=== FILE: numeric.dfy ===
/**
 * The JavaScript `Math` rounding functions used by the estimators, over exact
 * reals. Floating-point representation error is not modelled.
 */
module Numeric {

  /** `Math.ceil`: the least integer not below `x`. */
  function Ceil(x: real): (r: int)
    ensures x <= r as real < x + 1.0
  {
    -((-x).Floor)
  }

  /** `Math.round`: rounds to the nearest integer, halves going up. */
  function Round(x: real): (r: int)
    ensures x - 0.5 < r as real <= x + 0.5
  {
    (x + 0.5).Floor
  }

  /** `Math.round(x * 10) / 10`: rounds to one decimal place. */
  function RoundTenth(x: real): (r: real)
    ensures x - 0.05 < r <= x + 0.05
    ensures (r * 10.0).Floor as real == r * 10.0
  {
    Round(x * 10.0) as real / 10.0
  }

  function Min(a: int, b: int): (r: int)
    ensures r <= a && r <= b
    ensures r == a || r == b
  {
    if a < b then a else b
  }

  /** Ceiling is monotone. */
  lemma CeilMonotone(x: real, y: real)
    requires x <= y
    ensures Ceil(x) <= Ceil(y)
  {
  }
}

=== FILE: route_calculator.dfy ===
/**
 * The per-mode speed and tariff table (lib/data/transport-types.ts); the
 * display names, icons and colours are not modelled.
 */
module TransportTypes {
  import opened Types

  /** Average speed in km/h, boarding fare and fare per km. */
  datatype Tariff = Tariff(avgSpeed: int, baseFare: real, perKmFare: real)

  function TariffOf(m: Mode): (t: Tariff)
    ensures t.avgSpeed > 0 && t.baseFare >= 0.0 && t.perKmFare >= 0.0
  {
    match m
    case Metro => Tariff(35, 5.0, 1.5)
    case Bus => Tariff(18, 7.0, 0.8)
    case Taxi => Tariff(22, 25.0, 12.0)
    case Walk => Tariff(5, 0.0, 0.0)
  }

  /** By average speed: metro, then taxi, then bus, then walking. */
  lemma SpeedOrder()
    ensures TariffOf(Taxi).avgSpeed > TariffOf(Bus).avgSpeed > TariffOf(Walk).avgSpeed
    ensures TariffOf(Metro).avgSpeed > TariffOf(Taxi).avgSpeed
  {
  }
}

/**
 * The journey planner between two metro stations (lib/route-calculator.ts):
 * station lookup, the four mode options and their ordering. The straight-line
 * distance is a parameter: the haversine formula is floating-point
 * trigonometry and is not modelled.
 */
module RouteCalculator {
  import opened Wrappers
  import opened Text
  import opened Seqs
  import opened Types
  import opened TransportTypes
  import Numeric

  // ---------------------------------------------------------------------------
  // Station lookup
  // ---------------------------------------------------------------------------

  /** The lookup rule: the lower-cased name or id includes the lower-cased query. */
  predicate StationMatches(s: Station, query: string) {
    Contains(Lower(s.name), Lower(query)) || Contains(Lower(s.id), Lower(query))
  }

  /** `findStation`: the first station, in list order, that the query matches. */
  function FindStation(stations: seq<Station>, query: string): (r: Option<Station>)
    ensures r.None? <==> forall i :: 0 <= i < |stations| ==> !StationMatches(stations[i], query)
    ensures r.Some? ==> exists k ::
              && 0 <= k < |stations| && stations[k] == r.value && StationMatches(stations[k], query)
              && forall j :: 0 <= j < k ==> !StationMatches(stations[j], query)
  {
    Find(stations, (s: Station) => StationMatches(s, query))
  }

  /** An empty query is included in every name, so it finds the first station. */
  lemma EmptyQueryFindsFirst(stations: seq<Station>)
    requires stations != []
    ensures FindStation(stations, "") == Some(stations[0])
  {
    ContainsTrivial(Lower(stations[0].name));
    assert StationMatches(stations[0], "");
  }

  /** Looking a station up by its exact name finds it unless an earlier station also matches. */
  lemma FindByOwnName(stations: seq<Station>, i: nat)
    requires i < |stations|
    ensures FindStation(stations, stations[i].name).Some?
  {
    ContainsTrivial(Lower(stations[i].name));
    assert StationMatches(stations[i], stations[i].name);
  }

  // ---------------------------------------------------------------------------
  // Estimates
  // ---------------------------------------------------------------------------

  /**
   * `Math.ceil((distance / avgSpeed) * 60)`: the fewest whole minutes in which
   * the mode's average speed covers the distance.
   */
  function TravelMinutes(m: Mode, d: real): (r: int)
    ensures d <= TariffOf(m).avgSpeed as real * r as real / 60.0
    ensures TariffOf(m).avgSpeed as real * (r - 1) as real / 60.0 < d
  {
    var v := TariffOf(m).avgSpeed as real;
    var t := Numeric.Ceil(d / v * 60.0);
    assert d / v * 60.0 <= t as real < d / v * 60.0 + 1.0;
    t
  }

  /**
   * `Math.ceil(baseFare + distance * perKmFare)`: the base fare plus the
   * distance charge, rounded up to a whole rupee.
   */
  function TravelFare(m: Mode, d: real): (r: int)
    ensures TariffOf(m).baseFare + d * TariffOf(m).perKmFare <= r as real
    ensures (r as real) < TariffOf(m).baseFare + d * TariffOf(m).perKmFare + 1.0
  {
    Numeric.Ceil(TariffOf(m).baseFare + d * TariffOf(m).perKmFare)
  }

  /** Minutes and fares never fall as the distance grows. */
  lemma TravelMonotone(m: Mode, d: real, e: real)
    requires d <= e
    ensures TravelMinutes(m, d) <= TravelMinutes(m, e)
    ensures TravelFare(m, d) <= TravelFare(m, e)
  {
    var v := TariffOf(m).avgSpeed as real;
    assert d / v * 60.0 <= e / v * 60.0;
    assert d * TariffOf(m).perKmFare <= e * TariffOf(m).perKmFare;
    Numeric.CeilMonotone(d / v * 60.0, e / v * 60.0);
    Numeric.CeilMonotone(TariffOf(m).baseFare + d * TariffOf(m).perKmFare,
                         TariffOf(m).baseFare + e * TariffOf(m).perKmFare);
  }

  /** `from.lines.some(line => to.lines.includes(line))`. */
  predicate SharesLine(from: Station, to: Station) {
    exists i :: 0 <= i < |from.lines| && from.lines[i] in to.lines
  }

  // ---------------------------------------------------------------------------
  // The four options
  // ---------------------------------------------------------------------------

  /**
   * The metro option: walk to the station, ride the origin's first line, walk
   * on. Five minutes are added, and one interchange counted, when the two
   * stations share no line.
   */
  function MetroOption(from: Station, to: Station, d: real): (r: RouteOption)
    requires from.lines != []
    ensures r.id == Metro && r.from == from.name && r.to == to.name
    ensures r.interchanges == 0 <==> SharesLine(from, to)
    ensures r.interchanges == 0 || r.interchanges == 1
    ensures |r.steps| == 3 && r.steps[1].kind == Metro && r.steps[1].line == Some(from.lines[0])
    ensures r.duration == r.steps[1].duration + 5 * r.interchanges
    ensures r.steps[1].duration == TravelMinutes(Metro, d) && r.cost == TravelFare(Metro, d)
    ensures r.steps[0].kind == Walk && r.steps[0].duration == 5 && r.steps[2].kind == Walk && r.steps[2].duration == 3
    ensures d - 0.05 < r.distance <= d + 0.05
    ensures r.distance == Numeric.RoundTenth(d)
  {
    var time := TravelMinutes(Metro, d);
    var same := SharesLine(from, to);
    RouteOption(
      Metro, from.name, to.name, Numeric.RoundTenth(d),
      time + (if same then 0 else 5), TravelFare(Metro, d), if same then 0 else 1,
      [ RouteStep(Walk, "Start", from.name, None, 5, "Walk to " + from.name + " Metro Station"),
        RouteStep(Metro, from.name, to.name, Some(from.lines[0]), time,
                  "Take " + Upper(from.lines[0]) + " line to " + to.name),
        RouteStep(Walk, to.name, "Destination", None, 3, "Walk to your destination") ])
  }

  /**
   * The bus option: ten minutes of waiting on top of the ride, a distance
   * inflated by a fifth for the road, and one interchange beyond 5 km.
   */
  function BusOption(from: Station, to: Station, d: real): (r: RouteOption)
    ensures r.id == Bus && r.from == from.name && r.to == to.name
    ensures r.interchanges == (if d > 5.0 then 1 else 0)
    ensures |r.steps| == 3 && r.steps[1].kind == Bus && r.steps[1].line.None?
    ensures r.duration == r.steps[1].duration + 10
    ensures r.steps[1].duration == TravelMinutes(Bus, d) && r.cost == TravelFare(Bus, d)
    ensures r.steps[0].kind == Walk && r.steps[0].duration == 5 && r.steps[2].kind == Walk && r.steps[2].duration == 5
    ensures d * 1.2 - 0.05 < r.distance <= d * 1.2 + 0.05
    ensures r.distance == Numeric.RoundTenth(d * 1.2)
  {
    var time := TravelMinutes(Bus, d);
    RouteOption(
      Bus, from.name, to.name, Numeric.RoundTenth(d * 1.2),
      time + 10, TravelFare(Bus, d), if d > 5.0 then 1 else 0,
      [ RouteStep(Walk, "Start", "Bus Stop", None, 5, "Walk to the nearest bus stop"),
        RouteStep(Bus, "Bus Stop", "Destination Stop", None, time, "Take bus towards " + to.name + " area"),
        RouteStep(Walk, "Bus Stop", "Destination", None, 5, "Walk to your destination") ])
  }

  /** The taxi option: one direct leg, no waiting, no interchange. */
  function TaxiOption(from: Station, to: Station, d: real): (r: RouteOption)
    ensures r.id == Taxi && r.from == from.name && r.to == to.name && r.interchanges == 0
    ensures |r.steps| == 1 && r.steps[0].kind == Taxi && r.steps[0].duration == r.duration
    ensures r.duration == TravelMinutes(Taxi, d) && r.cost == TravelFare(Taxi, d)
    ensures r.distance == Numeric.RoundTenth(d)
  {
    var time := TravelMinutes(Taxi, d);
    RouteOption(
      Taxi, from.name, to.name, Numeric.RoundTenth(d), time, TravelFare(Taxi, d), 0,
      [RouteStep(Taxi, from.name, to.name, None, time, "Take taxi/auto directly to " + to.name)])
  }

  /** The walking option: one direct leg, free. */
  function WalkOption(from: Station, to: Station, d: real): (r: RouteOption)
    ensures r.id == Walk && r.from == from.name && r.to == to.name && r.interchanges == 0
    ensures |r.steps| == 1 && r.steps[0].kind == Walk && r.steps[0].duration == r.duration
    ensures r.duration == TravelMinutes(Walk, d) && r.cost == 0
    ensures r.distance == Numeric.RoundTenth(d)
  {
    var time := TravelMinutes(Walk, d);
    RouteOption(
      Walk, from.name, to.name, Numeric.RoundTenth(d), time, 0, 0,
      [RouteStep(Walk, from.name, to.name, None, time, "Walk directly to " + to.name)])
  }

  /** The options in the order they are pushed: walking only under 3 km. */
  function Options(from: Station, to: Station, d: real): (r: seq<RouteOption>)
    requires from.lines != []
    ensures |r| == (if d < 3.0 then 4 else 3)
    ensures forall i :: 0 <= i < |r| ==> r[i].from == from.name && r[i].to == to.name
  {
    [MetroOption(from, to, d), BusOption(from, to, d), TaxiOption(from, to, d)]
      + (if d < 3.0 then [WalkOption(from, to, d)] else [])
  }

  function DurationKey(o: RouteOption): int {
    o.duration
  }

  /**
   * `calculateRoutes`: the options sorted by duration, fastest first, with
   * equal durations kept in push order. `d` is the straight-line distance in km.
   */
  function CalculateRoutes(from: Station, to: Station, d: real): (r: seq<RouteOption>)
    requires from.lines != []
    ensures SortedBy(r, DurationKey)
    ensures multiset(r) == multiset(Options(from, to, d))
    ensures forall k :: WithKey(r, DurationKey, k) == WithKey(Options(from, to, d), DurationKey, k)
    ensures |r| == (if d < 3.0 then 4 else 3)
  {
    SortBy(Options(from, to, d), DurationKey)
  }

  /** The option built for a mode. */
  function OptionOf(m: Mode, from: Station, to: Station, d: real): (r: RouteOption)
    requires from.lines != []
    ensures r.id == m
  {
    match m
    case Metro => MetroOption(from, to, d)
    case Bus => BusOption(from, to, d)
    case Taxi => TaxiOption(from, to, d)
    case Walk => WalkOption(from, to, d)
  }

  /** Whether a mode is offered: walking only under 3 km, the others always. */
  predicate Offered(m: Mode, d: real) {
    m != Walk || d < 3.0
  }

  /** Before sorting: each offered mode's option is pushed once, and nothing else. */
  lemma OptionsModes(from: Station, to: Station, d: real)
    requires from.lines != []
    ensures forall o :: o in Options(from, to, d) ==> o == OptionOf(o.id, from, to, d) && Offered(o.id, d)
    ensures forall m :: multiset(Options(from, to, d))[OptionOf(m, from, to, d)] == if Offered(m, d) then 1 else 0
  {
    var opts := Options(from, to, d);
    var me, bu, ta, wa := OptionOf(Metro, from, to, d), OptionOf(Bus, from, to, d),
                          OptionOf(Taxi, from, to, d), OptionOf(Walk, from, to, d);
    var ms := multiset([me, bu, ta]);
    assert ms == multiset{me} + multiset{bu} + multiset{ta};
    assert ms[me] == 1 && ms[bu] == 1 && ms[ta] == 1 && ms[wa] == 0 by {
      assert me.id != bu.id && me.id != ta.id && bu.id != ta.id;
      assert wa.id !in {me.id, bu.id, ta.id};
    }
    if d < 3.0 {
      assert opts == [me, bu, ta] + [wa];
      assert multiset(opts) == ms + multiset{wa};
    } else {
      assert opts == [me, bu, ta];
    }
    forall m ensures multiset(opts)[OptionOf(m, from, to, d)] == if Offered(m, d) then 1 else 0 {
      match m
      case Metro => assert OptionOf(m, from, to, d) == me;
      case Bus => assert OptionOf(m, from, to, d) == bu;
      case Taxi => assert OptionOf(m, from, to, d) == ta;
      case Walk => assert OptionOf(m, from, to, d) == wa;
    }
  }

  /**
   * Every offered mode appears exactly once in the result, walking never at
   * 3 km or more, and each listed option is the one built for its mode.
   */
  lemma CalculateRoutesModes(from: Station, to: Station, d: real)
    requires from.lines != []
    ensures var r := CalculateRoutes(from, to, d);
            && (forall o :: o in r ==> o == OptionOf(o.id, from, to, d) && Offered(o.id, d))
            && (forall m :: multiset(r)[OptionOf(m, from, to, d)] == if Offered(m, d) then 1 else 0)
  {
    var r := CalculateRoutes(from, to, d);
    OptionsModes(from, to, d);
    forall o | o in r ensures o == OptionOf(o.id, from, to, d) && Offered(o.id, d) {
      assert o in multiset(Options(from, to, d));
    }
  }

  // ---------------------------------------------------------------------------
  // Ordering facts
  // ---------------------------------------------------------------------------

  /** Over any distance the taxi is quicker than the bus, so the bus is never listed first. */
  lemma BusNeverFirst(from: Station, to: Station, d: real)
    requires from.lines != [] && d >= 0.0
    ensures CalculateRoutes(from, to, d)[0].id != Bus
  {
    var r := CalculateRoutes(from, to, d);
    var taxi := TaxiOption(from, to, d);
    CalculateRoutesModes(from, to, d);
    assert multiset(r)[OptionOf(Taxi, from, to, d)] == 1;
    SortedHeadIsLeast(r, DurationKey, taxi);
    BusSlowerThanTaxi(d);
    assert r[0] in r;
    assert r[0].duration < BusOption(from, to, d).duration;
  }

  /** The bus ride plus its ten minutes of waiting always takes longer than the taxi. */
  lemma BusSlowerThanTaxi(d: real)
    requires d >= 0.0
    ensures TravelMinutes(Taxi, d) < TravelMinutes(Bus, d) + 10
  {
    Numeric.CeilMonotone(d / 22.0 * 60.0, d / 18.0 * 60.0);
  }

  /** The taxi costs strictly more than every other option. */
  lemma TaxiDearest(from: Station, to: Station, d: real)
    requires from.lines != [] && d >= 0.0
    ensures forall o :: o in CalculateRoutes(from, to, d) && o.id != Taxi ==> o.cost < TaxiOption(from, to, d).cost
  {
    CalculateRoutesModes(from, to, d);
  }
}

=== FILE: seqs.dfy ===
/**
 * The `Array.prototype` operations the source composes: `filter`, `find`,
 * `slice`, the stable `sort` by a numeric key and `reduce` to a minimum.
 */
module Seqs {
  import opened Wrappers

  /** `a` can be obtained from `b` by deleting elements: order is kept. */
  predicate IsSubsequence<T(==)>(a: seq<T>, b: seq<T>)
    decreases |b|
  {
    if a == [] then true
    else if b == [] then false
    else if a[0] == b[0] then IsSubsequence(a[1..], b[1..])
    else IsSubsequence(a, b[1..])
  }

  /** Every element of a subsequence is an element of the whole. */
  lemma {:induction false} SubsequenceMembers<T>(a: seq<T>, b: seq<T>)
    requires IsSubsequence(a, b)
    ensures forall x :: x in a ==> x in b
    ensures |a| <= |b|
    decreases |b|
  {
    if a != [] {
      if a[0] == b[0] {
        SubsequenceMembers(a[1..], b[1..]);
        assert forall x :: x in a ==> x == a[0] || x in a[1..];
      } else {
        SubsequenceMembers(a, b[1..]);
      }
    }
  }

  /** Being a subsequence is transitive. */
  lemma {:induction false} SubsequenceTransitive<T>(a: seq<T>, b: seq<T>, c: seq<T>)
    requires IsSubsequence(a, b) && IsSubsequence(b, c)
    ensures IsSubsequence(a, c)
    decreases |c|
  {
    if a != [] && b != [] && c != [] {
      if b[0] == c[0] {
        if a[0] == b[0] {
          SubsequenceTransitive(a[1..], b[1..], c[1..]);
        } else {
          SubsequenceTransitive(a, b[1..], c[1..]);
        }
      } else {
        SubsequenceTransitive(a, b, c[1..]);
        if a[0] == c[0] {
          SubsequenceDropHead(a, c[1..]);
        }
      }
    }
  }

  /** A subsequence takes each value at most as often as the whole has it. */
  lemma {:induction false} SubsequenceMultiset<T>(a: seq<T>, b: seq<T>)
    requires IsSubsequence(a, b)
    ensures multiset(a) <= multiset(b)
    decreases |b|
  {
    if a != [] {
      assert b == [b[0]] + b[1..];
      if a[0] == b[0] {
        SubsequenceMultiset(a[1..], b[1..]);
        assert a == [a[0]] + a[1..];
      } else {
        SubsequenceMultiset(a, b[1..]);
      }
    }
  }

  /** No value occurs twice. */
  predicate Distinct<T(==)>(s: seq<T>) {
    forall i, j :: 0 <= i < j < |s| ==> s[i] != s[j]
  }

  /** Distinctness is a property of the multiset: every count is at most one. */
  lemma {:induction false} DistinctCounts<T>(s: seq<T>)
    ensures Distinct(s) <==> forall x :: multiset(s)[x] <= 1
    decreases |s|
  {
    if s != [] {
      DistinctCounts(s[1..]);
      assert s == [s[0]] + s[1..];
      if Distinct(s) {
        assert Distinct(s[1..]) by {
          forall i, j | 0 <= i < j < |s[1..]| ensures s[1..][i] != s[1..][j] {
            assert s[1..][i] == s[i + 1] && s[1..][j] == s[j + 1];
          }
        }
        assert s[0] !in s[1..] by {
          forall j | 0 <= j < |s[1..]| ensures s[1..][j] != s[0] {
            assert s[1..][j] == s[j + 1];
          }
        }
      }
      if forall x :: multiset(s)[x] <= 1 {
        assert forall x :: multiset(s[1..])[x] <= 1 by {
          forall x ensures multiset(s[1..])[x] <= 1 {
            assert multiset(s)[x] >= multiset(s[1..])[x];
          }
        }
        assert multiset(s)[s[0]] == multiset(s[1..])[s[0]] + 1;
        forall i, j | 0 <= i < j < |s| ensures s[i] != s[j] {
          if i == 0 {
            assert s[j] == s[1..][j - 1];
            assert s[j] in multiset(s[1..]);
          } else {
            assert s[i] == s[1..][i - 1] && s[j] == s[1..][j - 1];
          }
        }
      }
    }
  }

  /** A permutation of a sequence without repeats has none either. */
  lemma DistinctPermutation<T>(a: seq<T>, b: seq<T>)
    requires multiset(a) <= multiset(b) && Distinct(b)
    ensures Distinct(a)
  {
    DistinctCounts(a);
    DistinctCounts(b);
  }

  /** A prefix is a subsequence. */
  lemma {:induction false} PrefixIsSubsequence<T>(s: seq<T>, n: nat)
    requires n <= |s|
    ensures IsSubsequence(s[..n], s)
    decreases n
  {
    if n > 0 {
      PrefixIsSubsequence(s[1..], n - 1);
      assert s[..n][1..] == s[1..][..n - 1];
    }
  }

  /** `xs.filter(p)`: exactly the elements satisfying `p`, in their original order. */
  function Filter<T(!new)>(xs: seq<T>, p: T -> bool): (r: seq<T>)
    ensures IsSubsequence(r, xs)
    ensures forall x :: x in r ==> p(x)
    ensures forall i :: 0 <= i < |xs| && p(xs[i]) ==> xs[i] in r
    ensures forall x :: multiset(r)[x] == if p(x) then multiset(xs)[x] else 0
    decreases |xs|
  {
    if xs == [] then []
    else
      var rest := Filter(xs[1..], p);
      assert xs == [xs[0]] + xs[1..];
      if p(xs[0]) then [xs[0]] + rest else rest
  }

  /** A predicate that holds everywhere filters nothing out. */
  lemma {:induction false} FilterAll<T(!new)>(xs: seq<T>, p: T -> bool)
    requires forall i :: 0 <= i < |xs| ==> p(xs[i])
    ensures Filter(xs, p) == xs
    decreases |xs|
  {
    if xs != [] {
      FilterAll(xs[1..], p);
    }
  }

  /** Filtering by a weaker predicate keeps more: the stronger filter is a subsequence of it. */
  lemma {:induction false} FilterWeaken<T(!new)>(xs: seq<T>, p: T -> bool, q: T -> bool)
    requires forall i :: 0 <= i < |xs| && p(xs[i]) ==> q(xs[i])
    ensures IsSubsequence(Filter(xs, p), Filter(xs, q))
    decreases |xs|
  {
    if xs != [] {
      FilterWeaken(xs[1..], p, q);
      var fp, fq := Filter(xs[1..], p), Filter(xs[1..], q);
      if p(xs[0]) {
        assert Filter(xs, p) == [xs[0]] + fp && Filter(xs, q) == [xs[0]] + fq;
        assert ([xs[0]] + fp)[1..] == fp && ([xs[0]] + fq)[1..] == fq;
      } else if q(xs[0]) {
        SubsequenceCons(fp, fq, xs[0]);
      }
    }
  }

  /** A subsequence of `b` stays one when `b` grows at the front. */
  lemma {:induction false} SubsequenceCons<T>(a: seq<T>, b: seq<T>, x: T)
    requires IsSubsequence(a, b)
    ensures IsSubsequence(a, [x] + b)
    decreases |b|, 1
  {
    if a != [] {
      assert ([x] + b)[1..] == b;
      if a[0] == x {
        SubsequenceDropHead(a, b);
      }
    }
  }

  /** Dropping the first element of a subsequence leaves a subsequence. */
  lemma {:induction false} SubsequenceDropHead<T>(a: seq<T>, b: seq<T>)
    requires a != [] && IsSubsequence(a, b)
    ensures IsSubsequence(a[1..], b)
    decreases |b|, 0
  {
    assert [b[0]] + b[1..] == b;
    if a[0] == b[0] {
      SubsequenceCons(a[1..], b[1..], b[0]);
    } else {
      SubsequenceDropHead(a, b[1..]);
      SubsequenceCons(a[1..], b[1..], b[0]);
    }
  }

  /** `xs.slice(0, n)`: the first `n` elements, or all of them when there are fewer. */
  function Take<T>(xs: seq<T>, n: nat): (r: seq<T>)
    ensures |r| == if |xs| < n then |xs| else n
    ensures r == xs[..|r|]
  {
    if |xs| < n then xs else xs[..n]
  }

  /** The first index at or after `start` whose element satisfies `p`. */
  function FindFrom<T>(xs: seq<T>, p: T -> bool, start: nat): (r: Option<nat>)
    requires start <= |xs|
    ensures r.None? <==> forall i :: start <= i < |xs| ==> !p(xs[i])
    ensures r.Some? ==>
              && start <= r.value < |xs| && p(xs[r.value])
              && forall j :: start <= j < r.value ==> !p(xs[j])
    decreases |xs| - start
  {
    if start == |xs| then None
    else if p(xs[start]) then Some(start)
    else FindFrom(xs, p, start + 1)
  }

  /** `findIndex`: the first index whose element satisfies `p`, if any. */
  function FindIndex<T>(xs: seq<T>, p: T -> bool): (r: Option<nat>)
    ensures r.None? <==> forall i :: 0 <= i < |xs| ==> !p(xs[i])
    ensures r.Some? ==>
              && r.value < |xs| && p(xs[r.value])
              && forall j :: 0 <= j < r.value ==> !p(xs[j])
  {
    FindFrom(xs, p, 0)
  }

  /** `find`: the first element satisfying `p`, or `None` (JavaScript's `undefined`). */
  function Find<T>(xs: seq<T>, p: T -> bool): (r: Option<T>)
    ensures r.None? <==> forall i :: 0 <= i < |xs| ==> !p(xs[i])
    ensures r.Some? ==> exists k ::
              && 0 <= k < |xs| && xs[k] == r.value && p(xs[k])
              && forall j :: 0 <= j < k ==> !p(xs[j])
  {
    match FindIndex(xs, p)
    case None => None
    case Some(k) => Some(xs[k])
  }

  /** Concatenation regrouped. */
  lemma ConcatAssoc<T>(a: seq<T>, b: seq<T>, c: seq<T>)
    ensures a + (b + c) == a + b + c
  {
  }

  /** A non-empty sequence is its head followed by its tail. */
  lemma HeadTail<T>(xs: seq<T>)
    requires xs != []
    ensures [xs[0]] + xs[1..] == xs
  {
  }

  /** The first and last elements of a non-empty slice. */
  lemma SliceEnds<T>(xs: seq<T>, a: nat, b: nat)
    requires a < b <= |xs|
    ensures xs[a..b][0] == xs[a] && xs[a..b][b - a - 1] == xs[b - 1]
  {
  }

  /** `xs` with the element at `k` taken out (`splice(k, 1)`). */
  function Remove<T>(xs: seq<T>, k: nat): (r: seq<T>)
    requires k < |xs|
    ensures |r| == |xs| - 1
    ensures multiset(r) + multiset{xs[k]} == multiset(xs)
  {
    assert xs == xs[..k] + [xs[k]] + xs[k + 1..];
    xs[..k] + xs[k + 1..]
  }

  /** Where each element of `Remove(xs, k)` sat in `xs`. */
  lemma RemoveAt<T>(xs: seq<T>, k: nat)
    requires k < |xs|
    ensures forall m :: 0 <= m < |Remove(xs, k)| ==> Remove(xs, k)[m] == if m < k then xs[m] else xs[m + 1]
  {
    var r := Remove(xs, k);
    assert r == xs[..k] + xs[k + 1..];
    forall m | 0 <= m < |r| ensures r[m] == if m < k then xs[m] else xs[m + 1] {
      if m >= k {
        assert r[m] == xs[k + 1..][m - k];
      }
    }
  }

  /** `x` occurs somewhere before `y` in `xs`. */
  ghost predicate Precedes<T>(x: T, y: T, xs: seq<T>) {
    exists a, b :: 0 <= a < b < |xs| && xs[a] == x && xs[b] == y
  }

  /** Taking an element out keeps the order of the others. */
  lemma PrecedesRemove<T>(x: T, y: T, xs: seq<T>, k: nat)
    requires k < |xs| && Precedes(x, y, Remove(xs, k))
    ensures Precedes(x, y, xs)
  {
    var rest := Remove(xs, k);
    var a, b :| 0 <= a < b < |rest| && rest[a] == x && rest[b] == y;
    RemoveAt(xs, k);
    var a', b' := if a < k then a else a + 1, if b < k then b else b + 1;
    assert xs[a'] == x && xs[b'] == y;
  }

  /** An order within the tail is an order within the whole. */
  lemma PrecedesTail<T>(x: T, y: T, xs: seq<T>)
    requires xs != [] && Precedes(x, y, xs[1..])
    ensures Precedes(x, y, xs)
  {
    var a, b :| 0 <= a < b < |xs[1..]| && xs[1..][a] == x && xs[1..][b] == y;
    assert xs[a + 1] == x && xs[b + 1] == y;
  }

  /** Non-decreasing by `key`. */
  predicate SortedBy<T>(xs: seq<T>, key: T -> int) {
    forall i, j :: 0 <= i < j < |xs| ==> key(xs[i]) <= key(xs[j])
  }

  /** The elements whose key is `k`, in order. */
  function WithKey<T>(xs: seq<T>, key: T -> int, k: int): seq<T>
    decreases |xs|
  {
    if xs == [] then []
    else (if key(xs[0]) == k then [xs[0]] else []) + WithKey(xs[1..], key, k)
  }

  /** An element no heavier than the head of a sorted list can go in front of it. */
  lemma SortedCons<T>(a: T, s: seq<T>, key: T -> int)
    requires SortedBy(s, key)
    requires s != [] ==> key(a) <= key(s[0])
    ensures SortedBy([a] + s, key)
  {
    var r := [a] + s;
    forall i, j | 0 <= i < j < |r| ensures key(r[i]) <= key(r[j]) {
      assert r[j] == s[j - 1];
      if i > 0 {
        assert r[i] == s[i - 1];
      }
    }
  }

  /** Puts `x` in front of the first element whose key is not below its own. */
  function Insert<T>(x: T, s: seq<T>, key: T -> int): (r: seq<T>)
    requires SortedBy(s, key)
    ensures SortedBy(r, key)
    ensures multiset(r) == multiset{x} + multiset(s)
    ensures |r| == |s| + 1
    ensures r[0] == x || (s != [] && r[0] == s[0])
    decreases |s|
  {
    if s == [] || key(x) <= key(s[0]) then
      SortedCons(x, s, key);
      [x] + s
    else
      var rest := Insert(x, s[1..], key);
      assert s == [s[0]] + s[1..];
      SortedCons(s[0], rest, key);
      [s[0]] + rest
  }

  /** Insertion keeps the order among equal keys: `x` lands before the elements of its own key. */
  lemma {:induction false} InsertWithKey<T>(x: T, s: seq<T>, key: T -> int, k: int)
    requires SortedBy(s, key)
    ensures WithKey(Insert(x, s, key), key, k) == (if key(x) == k then [x] else []) + WithKey(s, key, k)
    decreases |s|
  {
    if s == [] || key(x) <= key(s[0]) {
      WithKeyCons(x, s, key, k);
    } else {
      var rest := Insert(x, s[1..], key);
      InsertWithKey(x, s[1..], key, k);
      WithKeyCons(s[0], rest, key, k);
      HeadTail(s);
      WithKeyCons(s[0], s[1..], key, k);
    }
  }

  /** `WithKey` of a list with a given head. */
  lemma WithKeyCons<T>(y: T, s: seq<T>, key: T -> int, k: int)
    ensures WithKey([y] + s, key, k) == (if key(y) == k then [y] else []) + WithKey(s, key, k)
  {
    assert ([y] + s)[1..] == s;
  }

  /**
   * The stable `sort((a, b) => key(a) - key(b))`: a non-decreasing permutation
   * of `xs` in which elements with equal keys keep their input order.
   */
  function SortBy<T>(xs: seq<T>, key: T -> int): (r: seq<T>)
    ensures SortedBy(r, key)
    ensures multiset(r) == multiset(xs)
    ensures |r| == |xs|
    ensures forall k :: WithKey(r, key, k) == WithKey(xs, key, k)
    decreases |xs|
  {
    if xs == [] then []
    else
      assert xs == [xs[0]] + xs[1..];
      var sorted := SortBy(xs[1..], key);
      var r := Insert(xs[0], sorted, key);
      assert |r| == |multiset(r)|;
      assert forall k :: WithKey(r, key, k) == WithKey(xs, key, k) by {
        forall k ensures WithKey(r, key, k) == WithKey(xs, key, k) {
          InsertWithKey(xs[0], sorted, key, k);
        }
      }
      r
  }

  /** A sorted sequence's first element has the least key. */
  lemma SortedHeadIsLeast<T>(xs: seq<T>, key: T -> int, y: T)
    requires SortedBy(xs, key) && y in xs
    ensures key(xs[0]) <= key(y)
  {
  }

  /**
   * `xs.reduce((a, b) => key(a) < key(b) ? a : b)` as the index it ends on:
   * folding from the left, a later element wins every tie.
   */
  function ReduceMin<T>(xs: seq<T>, key: T -> int): (k: nat)
    requires |xs| > 0
    ensures k < |xs|
    ensures forall j :: 0 <= j < |xs| ==> key(xs[k]) <= key(xs[j])
    ensures forall j :: k < j < |xs| ==> key(xs[k]) < key(xs[j])
    decreases |xs|
  {
    if |xs| == 1 then 0
    else
      var k := ReduceMin(xs[..|xs| - 1], key);
      if key(xs[k]) < key(xs[|xs| - 1]) then k else |xs| - 1
  }
}

=== FILE: text.dfy ===
/**
 * String operations of the JavaScript runtime that the source relies on,
 * restricted to ASCII case mapping and ASCII white space.
 */
module Text {

  predicate IsUpper(c: char) {
    'A' <= c <= 'Z'
  }

  predicate IsLower(c: char) {
    'a' <= c <= 'z'
  }

  /** White space as `\s` and `String.prototype.trim` see it (ASCII part only). */
  predicate IsSpace(c: char) {
    c == ' ' || c == '\t' || c == '\n' || c == '\r' || c == '\U{B}' || c == '\U{C}'
  }

  function LowerChar(c: char): (r: char)
    ensures !IsUpper(r)
    ensures IsUpper(c) ==> IsLower(r) && r as int == c as int + 32
    ensures !IsUpper(c) ==> r == c
  {
    if IsUpper(c) then (c as int + 32) as char else c
  }

  function UpperChar(c: char): (r: char)
    ensures !IsLower(r)
    ensures IsLower(c) ==> IsUpper(r) && r as int + 32 == c as int
    ensures !IsLower(c) ==> r == c
  {
    if IsLower(c) then (c as int - 32) as char else c
  }

  /** `toLowerCase`: every ASCII capital becomes its small letter; nothing else moves. */
  function Lower(s: string): (r: string)
    ensures |r| == |s|
    ensures forall i :: 0 <= i < |s| ==> r[i] == LowerChar(s[i])
  {
    seq(|s|, i requires 0 <= i < |s| => LowerChar(s[i]))
  }

  /** `toUpperCase`, ASCII part. */
  function Upper(s: string): (r: string)
    ensures |r| == |s|
    ensures forall i :: 0 <= i < |s| ==> r[i] == UpperChar(s[i])
  {
    seq(|s|, i requires 0 <= i < |s| => UpperChar(s[i]))
  }

  /** Lower-casing twice is lower-casing once. */
  lemma LowerIdempotent(s: string)
    ensures Lower(Lower(s)) == Lower(s)
  {
  }

  /** `s.startsWith(p)`. */
  predicate IsPrefix(p: string, s: string) {
    |p| <= |s| && s[..|p|] == p
  }

  /** Two prefixes of one string: the shorter is a prefix of the longer. */
  lemma PrefixesAgree(a: string, b: string, s: string)
    requires IsPrefix(a, s) && IsPrefix(b, s) && |a| <= |b|
    ensures IsPrefix(a, b)
  {
    assert b[..|a|] == s[..|b|][..|a|] == s[..|a|];
  }

  /** `t` occurs in `s` starting at offset `i`. */
  predicate OccursAt(s: string, t: string, i: int) {
    0 <= i <= |s| - |t| && s[i..i + |t|] == t
  }

  /** `s.includes(t)`: `t` starts `s` or is included in its tail. */
  predicate Contains(s: string, t: string)
    decreases |s|
  {
    IsPrefix(t, s) || (s != [] && Contains(s[1..], t))
  }

  /** `Contains` holds exactly when `t` occurs in `s` at some offset. */
  lemma {:induction false} ContainsOccurs(s: string, t: string)
    ensures Contains(s, t) <==> exists i :: OccursAt(s, t, i)
    decreases |s|
  {
    if s == [] {
      if Contains(s, t) {
        assert OccursAt(s, t, 0);
      }
      if exists i :: OccursAt(s, t, i) {
        var i :| OccursAt(s, t, i);
        assert t == [];
      }
    } else {
      ContainsOccurs(s[1..], t);
      if Contains(s, t) {
        if IsPrefix(t, s) {
          assert OccursAt(s, t, 0);
        } else {
          var i :| OccursAt(s[1..], t, i);
          assert s[1..][i..i + |t|] == s[i + 1..i + 1 + |t|];
          assert OccursAt(s, t, i + 1);
        }
      }
      if exists i :: OccursAt(s, t, i) {
        var i :| OccursAt(s, t, i);
        if i > 0 {
          assert s[1..][i - 1..i - 1 + |t|] == s[i..i + |t|];
          assert OccursAt(s[1..], t, i - 1);
        }
      }
    }
  }

  /** Every string includes the empty string and itself. */
  lemma ContainsTrivial(s: string)
    ensures Contains(s, [])
    ensures Contains(s, s)
  {
    assert s[..0] == [];
  }

  /** An occurrence of `t` inside `m` lifts to any string that includes `m`. */
  lemma ContainsTransitive(s: string, m: string, t: string)
    requires Contains(s, m) && Contains(m, t)
    ensures Contains(s, t)
  {
    ContainsOccurs(s, m);
    ContainsOccurs(m, t);
    ContainsOccurs(s, t);
    var i :| OccursAt(s, m, i);
    var j :| OccursAt(m, t, j);
    forall k | 0 <= k < |t|
      ensures s[i + j + k] == t[k]
    {
      assert s[i + j + k] == s[i..i + |m|][j + k] == m[j + k] == m[j..j + |t|][k];
    }
    assert s[i + j..i + j + |t|] == t;
    assert OccursAt(s, t, i + j);
  }

  /** Lower-casing preserves inclusion. */
  lemma {:induction false} ContainsLower(s: string, t: string)
    requires Contains(s, t)
    ensures Contains(Lower(s), Lower(t))
    decreases |s|
  {
    if IsPrefix(t, s) {
      assert Lower(s)[..|t|] == Lower(s[..|t|]);
    } else {
      ContainsLower(s[1..], t);
      assert Lower(s)[1..] == Lower(s[1..]);
    }
  }

  /** `s.split(sep)`: the pieces between separators, always at least one. */
  function Split(s: string, sep: char): (r: seq<string>)
    ensures |r| >= 1
    ensures forall w :: w in r ==> sep !in w
    decreases |s|
  {
    if s == [] then [[]]
    else if s[0] == sep then [[]] + Split(s[1..], sep)
    else
      var rest := Split(s[1..], sep);
      [[s[0]] + rest[0]] + rest[1..]
  }

  /** Drops leading white space (`TrimStartSpec`). */
  function TrimStart(s: string): (r: string)
    ensures |r| <= |s|
    ensures s != [] && IsSpace(s[0]) ==> |r| < |s|
    ensures r != [] ==> !IsSpace(r[0])
    decreases |s|
  {
    if s != [] && IsSpace(s[0]) then TrimStart(s[1..]) else s
  }

  /** What is left is a suffix of `s`, and only white space was dropped. */
  lemma {:induction false} TrimStartSpec(s: string)
    ensures TrimStart(s) == s[|s| - |TrimStart(s)|..]
    ensures forall i :: 0 <= i < |s| - |TrimStart(s)| ==> IsSpace(s[i])
    decreases |s|
  {
    if s != [] && IsSpace(s[0]) {
      TrimStartSpec(s[1..]);
      assert s[1..][|s| - 1 - |TrimStart(s)|..] == s[|s| - |TrimStart(s)|..];
      forall i | 0 <= i < |s| - |TrimStart(s)| ensures IsSpace(s[i]) {
        if i > 0 {
          assert s[i] == s[1..][i - 1];
        }
      }
    }
  }

  /** Trimming a run of white space stops at the first non-space character after it. */
  lemma {:induction false} TrimStartRun(w: string, v: string)
    requires forall i :: 0 <= i < |w| ==> IsSpace(w[i])
    requires v == [] || !IsSpace(v[0])
    ensures TrimStart(w + v) == v
    decreases |w|
  {
    if w != [] {
      assert (w + v)[1..] == w[1..] + v;
      TrimStartRun(w[1..], v);
    } else {
      assert w + v == v;
    }
  }

  /** Trimming a text that ends in a non-space character never reaches what follows it. */
  lemma {:induction false} TrimStartAppend(u: string, t: string)
    requires u != [] && !IsSpace(u[|u| - 1])
    ensures TrimStart(u + t) == TrimStart(u) + t
    decreases |u|
  {
    if IsSpace(u[0]) {
      assert (u + t)[1..] == u[1..] + t;
      TrimStartAppend(u[1..], t);
    }
  }

  /** Trimming the front of a text that ends in a non-space character keeps that character. */
  lemma TrimStartKeepsLast(u: string)
    requires u != [] && !IsSpace(u[|u| - 1])
    ensures TrimStart(u) != [] && TrimStart(u)[|TrimStart(u)| - 1] == u[|u| - 1]
  {
    TrimStartSpec(u);
  }

  /** Drops trailing white space (`TrimEndSpec`). */
  function TrimEnd(s: string): (r: string)
    ensures |r| <= |s|
    ensures r != [] ==> !IsSpace(r[|r| - 1])
    decreases |s|
  {
    if s != [] && IsSpace(s[|s| - 1]) then TrimEnd(s[..|s| - 1]) else s
  }

  /** What is left is a prefix of `s`, and only white space was dropped. */
  lemma {:induction false} TrimEndSpec(s: string)
    ensures TrimEnd(s) == s[..|TrimEnd(s)|]
    ensures forall i :: |TrimEnd(s)| <= i < |s| ==> IsSpace(s[i])
    decreases |s|
  {
    if s != [] && IsSpace(s[|s| - 1]) {
      TrimEndSpec(s[..|s| - 1]);
      assert s[..|s| - 1][..|TrimEnd(s)|] == s[..|TrimEnd(s)|];
      forall i | |TrimEnd(s)| <= i < |s| ensures IsSpace(s[i]) {
        if i < |s| - 1 {
          assert s[i] == s[..|s| - 1][i];
        }
      }
    }
  }

  /** `trim`: drops the white space at both ends (`TrimSpec`). */
  function Trim(s: string): (r: string)
    ensures |r| <= |s|
  {
    TrimEnd(TrimStart(s))
  }

  /**
   * The trimmed string is the middle of `s` once the white space at both ends
   * is cut off; it neither starts nor ends with white space and holds only
   * characters of `s`.
   */
  lemma TrimSpec(s: string)
    ensures var r := Trim(s);
            && (exists a, b ::
                  && 0 <= a <= b <= |s| && r == s[a..b]
                  && (forall i :: 0 <= i < a ==> IsSpace(s[i]))
                  && (forall i :: b <= i < |s| ==> IsSpace(s[i])))
            && (r != [] ==> !IsSpace(r[0]) && !IsSpace(r[|r| - 1]))
            && (forall c :: c in r ==> c in s)
  {
    var a, b := TrimMiddle(s);
    TrimEnds(s);
    SliceMembers(s, a, b);
  }

  /** Where the trimmed string sits in `s`. */
  lemma TrimMiddle(s: string) returns (a: nat, b: nat)
    ensures a <= b <= |s| && Trim(s) == s[a..b]
    ensures forall i :: 0 <= i < a ==> IsSpace(s[i])
    ensures forall i :: b <= i < |s| ==> IsSpace(s[i])
  {
    var t := TrimStart(s);
    var r := TrimEnd(t);
    a := |s| - |t|;
    b := a + |r|;
    TrimStartSpec(s);
    TrimEndSpec(t);
    forall i | b <= i < |s| ensures IsSpace(s[i]) {
      assert s[i] == t[i - a];
    }
  }

  /** The trimmed string neither starts nor ends with white space. */
  lemma TrimEnds(s: string)
    ensures Trim(s) != [] ==> !IsSpace(Trim(s)[0]) && !IsSpace(Trim(s)[|Trim(s)| - 1])
  {
    TrimEndSpec(TrimStart(s));
  }

  /** A slice holds only characters of the whole. */
  lemma SliceMembers(s: string, a: nat, b: nat)
    requires a <= b <= |s|
    ensures forall c :: c in s[a..b] ==> c in s
  {
    forall c | c in s[a..b] ensures c in s {
      var i :| 0 <= i < b - a && s[a..b][i] == c;
      assert s[a + i] == c;
    }
  }

  /** The decimal digit for `d`. */
  function DigitChar(d: nat): (c: char)
    requires d < 10
    ensures '0' <= c <= '9'
  {
    ('0' as int + d) as char
  }

  function DigitValue(c: char): (d: nat)
    requires '0' <= c <= '9'
    ensures d < 10 && DigitChar(d) == c
  {
    c as int - '0' as int
  }

  predicate IsDigits(s: string) {
    forall i :: 0 <= i < |s| ==> '0' <= s[i] <= '9'
  }

  /** The value of a string of decimal digits (0 for the empty string). */
  function DigitsValue(s: string): nat
    requires IsDigits(s)
    decreases |s|
  {
    if s == [] then 0 else DigitsValue(s[..|s| - 1]) * 10 + DigitValue(s[|s| - 1])
  }

  /** The decimal rendering of a natural number, as template literals print it. */
  function NatToString(n: nat): (r: string)
    ensures r != [] && IsDigits(r)
    decreases n
  {
    if n < 10 then [DigitChar(n)] else NatToString(n / 10) + [DigitChar(n % 10)]
  }

  /** Reading the rendering back gives the number: the rendering is faithful. */
  lemma {:induction false} NatToStringRoundTrip(n: nat)
    ensures DigitsValue(NatToString(n)) == n
    decreases n
  {
    var r := NatToString(n);
    if n >= 10 {
      NatToStringRoundTrip(n / 10);
      assert r[..|r| - 1] == NatToString(n / 10);
    }
  }

  /** The decimal rendering of an integer, with a leading `-` when negative. */
  function IntToString(n: int): (r: string)
    ensures r != []
    ensures n >= 0 ==> IsDigits(r)
    ensures n < 0 ==> r[0] == '-' && IsDigits(r[1..])
  {
    if n >= 0 then NatToString(n) else "-" + NatToString(-n)
  }

  /** Strict lexicographic order by character code, as the default `sort` compares strings. */
  predicate LexLess(a: string, b: string)
    decreases |a|
  {
    if a == [] then b != []
    else if b == [] then false
    else if a[0] != b[0] then a[0] < b[0]
    else LexLess(a[1..], b[1..])
  }

  lemma {:induction false} LexLessIrreflexive(a: string)
    ensures !LexLess(a, a)
    decreases |a|
  {
    if a != [] {
      LexLessIrreflexive(a[1..]);
    }
  }

  lemma {:induction false} LexLessTransitive(a: string, b: string, c: string)
    requires LexLess(a, b) && LexLess(b, c)
    ensures LexLess(a, c)
    decreases |a|
  {
    if a != [] && b != [] && c != [] && a[0] == b[0] && b[0] == c[0] {
      LexLessTransitive(a[1..], b[1..], c[1..]);
    }
  }

  /** Any two different strings are ordered one way, and never both ways. */
  lemma {:induction false} LexLessTotal(a: string, b: string)
    ensures a != b <==> (LexLess(a, b) || LexLess(b, a))
    ensures !(LexLess(a, b) && LexLess(b, a))
    decreases |a|
  {
    if a != [] && b != [] && a[0] == b[0] {
      LexLessTotal(a[1..], b[1..]);
      assert a == [a[0]] + a[1..] && b == [b[0]] + b[1..];
    }
  }
}

=== FILE: transport_page.dfy ===
/**
 * The state logic of the journey-planner page (app/transport/page.tsx): the
 * search and swap handlers, the fastest and cheapest picks, and the badge
 * rule. Rendering is not modelled. The distance between two stations is a
 * parameter standing for the haversine formula.
 */
module TransportPage {
  import opened Wrappers
  import opened Seqs
  import opened Types
  import RouteCalculator
  import BusUtils

  /** The page's state variables. `selectedRoute` is the mode of the chosen option. */
  datatype PageState = PageState(
    fromStation: string,
    toStation: string,
    routes: seq<RouteOption>,
    busMatches: seq<BusUtils.BusMatch>,
    selectedRoute: Option<Mode>,
    hasSearched: bool)

  /** How many bus alternatives the page shows. */
  const MaxBusAlternatives: nat := 3

  /**
   * What every state the page's handlers reach satisfies: at most three bus
   * alternatives, none without route options, and after a search some shown
   * option selected.
   */
  predicate Consistent(st: PageState) {
    && |st.busMatches| <= MaxBusAlternatives
    && (st.routes == [] ==> st.busMatches == [])
    && (st.hasSearched ==> st.routes != [] && st.selectedRoute.Some? && st.selectedRoute.value in Modes(st.routes))
  }

  /** The state the page starts in. */
  function Initial(): (st: PageState)
    ensures st.routes == [] && st.busMatches == [] && !st.hasSearched && st.selectedRoute.None?
    ensures Consistent(st)
  {
    PageState("", "", [], [], None, false)
  }

  /** `stations.find((s) => s.id === id)`. */
  function StationById(stations: seq<Station>, id: string): (r: Option<Station>)
    ensures r.Some? ==> r.value in stations && r.value.id == id
    ensures r.Some? ==> exists k :: 0 <= k < |stations| && stations[k] == r.value
                          && forall j :: 0 <= j < k ==> stations[j].id != id
    ensures r.None? <==> forall i :: 0 <= i < |stations| ==> stations[i].id != id
  {
    Find(stations, (s: Station) => s.id == id)
  }

  /**
   * `handleSearch`: when both selected ids name stations, compute the options
   * and the bus alternatives and select the first option; otherwise nothing
   * changes. When both ids are known the origin is on at least one line, as
   * the option builder reads its first line.
   */
  function HandleSearch(st: PageState, stations: seq<Station>, buses: seq<BusUtils.BusRoute>,
                        distance: (Station, Station) -> real): (r: PageState)
    requires var from := StationById(stations, st.fromStation);
             from.Some? && StationById(stations, st.toStation).Some? ==> from.value.lines != []
    ensures r.fromStation == st.fromStation && r.toStation == st.toStation
    ensures Consistent(st) ==> Consistent(r)
  {
    match (StationById(stations, st.fromStation), StationById(stations, st.toStation))
    case (Some(from), Some(to)) =>
      var routes := RouteCalculator.CalculateRoutes(from, to, distance(from, to));
      var buses := BusUtils.FindBusRoutes(buses, from.name, to.name);
      st.(routes := routes, selectedRoute := Some(routes[0].id),
          busMatches := Take(buses, MaxBusAlternatives), hasSearched := true)
    case _ => st
  }

  /**
   * A search with both ids known shows the options for the two stations,
   * selects the first (fastest-sorted) one, and lists the best-ranked bus
   * matches, at most three; with an unknown id the state stays as it was.
   */
  lemma HandleSearchOutcome(st: PageState, stations: seq<Station>, buses: seq<BusUtils.BusRoute>,
                            distance: (Station, Station) -> real)
    requires var from := StationById(stations, st.fromStation);
             from.Some? && StationById(stations, st.toStation).Some? ==> from.value.lines != []
    ensures var r := HandleSearch(st, stations, buses, distance);
            var from := StationById(stations, st.fromStation);
            var to := StationById(stations, st.toStation);
            if from.Some? && to.Some? then
              && r.hasSearched
              && r.routes == RouteCalculator.CalculateRoutes(from.value, to.value, distance(from.value, to.value))
              && r.routes != [] && r.selectedRoute == Some(r.routes[0].id)
              && r.busMatches == Take(BusUtils.FindBusRoutes(buses, from.value.name, to.value.name), MaxBusAlternatives)
            else r == st
  {
  }

  /** `handleSwap`: exchange the two ids and clear the results; the selection is kept. */
  function HandleSwap(st: PageState): (r: PageState)
    ensures r.fromStation == st.toStation && r.toStation == st.fromStation
    ensures r.routes == [] && r.busMatches == [] && !r.hasSearched
    ensures r.selectedRoute == st.selectedRoute
    ensures Consistent(r)
  {
    st.(fromStation := st.toStation, toStation := st.fromStation, routes := [], busMatches := [], hasSearched := false)
  }

  /** The origin picker's `onSelect`: only the origin id changes. */
  function SetFrom(st: PageState, id: string): (r: PageState)
    ensures r.fromStation == id && r.toStation == st.toStation
    ensures r.routes == st.routes && r.busMatches == st.busMatches && r.selectedRoute == st.selectedRoute
    ensures Consistent(st) ==> Consistent(r)
  {
    st.(fromStation := id)
  }

  /** The destination picker's `onSelect`: only the destination id changes. */
  function SetTo(st: PageState, id: string): (r: PageState)
    ensures r.toStation == id && r.fromStation == st.fromStation
    ensures r.routes == st.routes && r.busMatches == st.busMatches && r.selectedRoute == st.selectedRoute
    ensures Consistent(st) ==> Consistent(r)
  {
    st.(toStation := id)
  }

  /**
   * A route card's `onSelect`: the card's option becomes the selection. Cards
   * are drawn only for the options shown, so `i` indexes `routes`.
   */
  function SelectRoute(st: PageState, i: nat): (r: PageState)
    requires i < |st.routes|
    ensures r.selectedRoute == Some(st.routes[i].id)
    ensures r.routes == st.routes && r.busMatches == st.busMatches && r.hasSearched == st.hasSearched
    ensures r.fromStation == st.fromStation && r.toStation == st.toStation
    ensures Consistent(st) ==> Consistent(r)
  {
    st.(selectedRoute := Some(st.routes[i].id))
  }

  /** Swapping twice restores both ids. */
  lemma SwapTwice(st: PageState)
    ensures HandleSwap(HandleSwap(st)).fromStation == st.fromStation
    ensures HandleSwap(HandleSwap(st)).toStation == st.toStation
    ensures HandleSwap(HandleSwap(st)) == HandleSwap(st).(fromStation := st.fromStation, toStation := st.toStation)
  {
  }

  function Duration(o: RouteOption): int {
    o.duration
  }

  function Cost(o: RouteOption): int {
    o.cost
  }

  /**
   * `fastestRoute`: `reduce((a, b) => a.duration < b.duration ? a : b)`, or
   * `null` for no options. Ties go to the later option.
   */
  function Fastest(routes: seq<RouteOption>): (r: Option<RouteOption>)
    ensures r.None? <==> routes == []
    ensures r.Some? ==> r.value in routes && forall o :: o in routes ==> r.value.duration <= o.duration
  {
    if routes == [] then None else Some(routes[ReduceMin(routes, Duration)])
  }

  /** `cheapestRoute`: the same reduction by cost. */
  function Cheapest(routes: seq<RouteOption>): (r: Option<RouteOption>)
    ensures r.None? <==> routes == []
    ensures r.Some? ==> r.value in routes && forall o :: o in routes ==> r.value.cost <= o.cost
  {
    if routes == [] then None else Some(routes[ReduceMin(routes, Cost)])
  }

  /** On a tie the reduction keeps the last of the tied options: no later option is as fast. */
  lemma FastestTakesLastTie(routes: seq<RouteOption>)
    requires routes != []
    ensures exists k :: 0 <= k < |routes| && routes[k] == Fastest(routes).value
              && forall j :: k < j < |routes| ==> routes[k].duration < routes[j].duration
  {
    var k := ReduceMin(routes, Duration);
    assert routes[k] == Fastest(routes).value;
  }

  /** Likewise for the cheapest pick: no later option is as cheap. */
  lemma CheapestTakesLastTie(routes: seq<RouteOption>)
    requires routes != []
    ensures exists k :: 0 <= k < |routes| && routes[k] == Cheapest(routes).value
              && forall j :: k < j < |routes| ==> routes[k].cost < routes[j].cost
  {
    var k := ReduceMin(routes, Cost);
    assert routes[k] == Cheapest(routes).value;
  }

  /** The "Fastest" badge: the card's mode is the fastest option's mode. */
  predicate IsFastest(routes: seq<RouteOption>, o: RouteOption) {
    Fastest(routes).Some? && Fastest(routes).value.id == o.id
  }

  /** The "Cheap" badge: the card is the cheapest option, and that option is not also the fastest. */
  predicate IsCheapest(routes: seq<RouteOption>, o: RouteOption) {
    Cheapest(routes).Some? && Cheapest(routes).value.id == o.id
    && Cheapest(routes).value.id != Fastest(routes).value.id
  }

  /** No card carries both badges, and a card is marked cheap only if no option costs less. */
  lemma BadgesExclusive(routes: seq<RouteOption>, o: RouteOption)
    ensures !(IsFastest(routes, o) && IsCheapest(routes, o))
    ensures IsCheapest(routes, o) && o in routes && Distinct(Modes(routes)) ==>
              forall p :: p in routes ==> o.cost <= p.cost
  {
    if IsCheapest(routes, o) && o in routes && Distinct(Modes(routes)) {
      var c := Cheapest(routes).value;
      var i :| 0 <= i < |routes| && routes[i] == o;
      var j :| 0 <= j < |routes| && routes[j] == c;
      assert Modes(routes)[i] == Modes(routes)[j];
    }
  }

  function Modes(routes: seq<RouteOption>): (r: seq<Mode>)
    ensures |r| == |routes| && forall i :: 0 <= i < |routes| ==> r[i] == routes[i].id
  {
    seq(|routes|, i requires 0 <= i < |routes| => routes[i].id)
  }

  /**
   * On the options of a search, which come sorted by duration, the fastest
   * pick is as quick as the first (selected) option.
   */
  lemma FastestMatchesFirst(from: Station, to: Station, d: real)
    requires from.lines != []
    ensures var routes := RouteCalculator.CalculateRoutes(from, to, d);
            Fastest(routes).value.duration == routes[0].duration
  {
    var routes := RouteCalculator.CalculateRoutes(from, to, d);
    var f := Fastest(routes).value;
    SortedHeadIsLeast(routes, RouteCalculator.DurationKey, f);
  }
}

=== FILE: types.dfy ===
/** The records shared by the estimators and pages (lib/types.ts). */
module Types {
  import opened Wrappers

  /** A metro station; coordinates are kept only to feed the distance function. */
  datatype Station = Station(id: string, name: string, lat: real, lng: real, lines: seq<string>)

  /** The five fixed place categories. */
  datatype Category = Historical | Cultural | Religious | FoodMarkets | Nature

  datatype Place = Place(
    id: string,
    name: string,
    category: Category,
    lat: real,
    lng: real,
    description: string,
    bestTime: string,
    entryFee: string,
    nearbyStation: string,
    image: string)

  /** The four travel modes; a route option's `id` and `type` are both this mode. */
  datatype Mode = Metro | Bus | Taxi | Walk

  datatype RouteStep = RouteStep(
    kind: Mode,
    from: string,
    to: string,
    line: Option<string>,
    duration: int,
    instruction: string)

  datatype RouteOption = RouteOption(
    id: Mode,
    from: string,
    to: string,
    distance: real,
    duration: int,
    cost: int,
    interchanges: int,
    steps: seq<RouteStep>)

  datatype ItineraryDay = ItineraryDay(day: int, places: seq<Place>, totalDistance: real, totalDuration: int)
}

=== FILE: wrappers.dfy ===
/** The optional value used wherever the source returns `undefined` or `null`. */
module Wrappers {

  datatype Option<+T> = None | Some(value: T)
}
